=== FILE: README.md ===
# sublime-gitformats core, modelled in Dafny

This project models three helpers of the sublime-gitformats editor plugin:

- **Git config completions** (`config_completions.py`). Inside a `[...]` header the plugin is meant to offer the known section names; as written it offers nothing (see "## Findings"). Inside a section it offers the section's known keys, followed by ` = ` unless the line already has an `=`. Inside a value it offers nothing. The section a cursor is in is the nearest header before it, normalised to the dotted form (`[branch "main"]` becomes `branch.main`). A subsection the table does not list falls back to the first parameterised entry with the same section part (`merge.ours` gets the keys of `merge.<driver>`).
- **Worktree resolution** (`open_file.py`). This is a local emulation of `git rev-parse`. It finds the working tree holding a file: the nearest proper ancestor with a `.git` entry. It finds the git directory, following a `gitdir: ` redirect file when `.git` is one; linked worktrees, submodules and separate git directories leave such a file. It finds the repository that holds the git directory, whose `.git` entry is taken as the common directory and whose working tree is the "super" working tree. A relative redirect is read as git reads it, against the directory holding the `.git` file, not as the plugin does (see "## Findings"). `init_variables` gathers all four into the variables a file path template may use.
- **Rebase line rewriter** (`rebase.py`). It accepts one of git's seven rebase commands. It then replaces the first word of every selected line of the todo list with it, keeping the leading blanks and the rest of the line.

Modules:

- `Text`: the Python `str` operations the plugin uses (`find`, `strip`, `replace`), plus `Option`.
- `Paths`: paths as component sequences, `os.path.split`, `os.path.join`, and `realpath` without symbolic links.
- `Worktree`: the resolver in `open_file.py`.
- `WorktreeExamples`: the resolver on four concrete disk layouts.
- `ConfigKeys`: the `KEYS` table and the key lookup with its fallback.
- `ConfigCompletions`: `section_name`, the completion lists and the dispatch.
- `Rebase`: `rebase.py`.

## Model

| member | source | states |
|---|---|---|
| Text.Strip | config_completions.py:241 | `strip` keeps the infix that starts where the leading dropped characters end and neither starts nor ends with a dropped character; everything cut off on either side is a dropped character |
| Text.StripLeftAt | config_completions.py:241 | left stripping stops at the first kept character, wherever it is |
| Text.StripRightAt | config_completions.py:241 | right stripping stops after the last kept character, wherever it is |
| Text.StripLeftDropped | config_completions.py:241 | dropped characters put in front do not change what left stripping keeps |
| Text.StripRightDropped | config_completions.py:241 | dropped characters put behind do not change what right stripping keeps |
| Text.StripTrailing | open_file.py:76 | a text that neither starts nor ends with a dropped character, followed by dropped characters only, strips back to itself |
| Text.ReplacePair | config_completions.py:242 | `replace(' "', '.')` never lengthens the text, is empty exactly when the text is, and starts with the new character when the text starts with the pattern and with the text's first character otherwise |
| Text.ReplacePairCopiesPrefix | config_completions.py:242 | a prefix with no blank passes through the replacement unchanged |
| Text.ReplacePairAtPattern | config_completions.py:242 | the first blank, when a quote follows it, becomes the new character together with the quote, and the replacement goes on after the pair, so matches are taken left to right without overlap |
| Text.ReplacePairAtLone | config_completions.py:242 | the first blank, when no quote follows it, is kept, and the replacement goes on after it |
| Text.ReplacePairKeeps | config_completions.py:242 | every character of the result is the new character or one of the text |
| Text.ReplacePairLeavesNoPattern | config_completions.py:242 | after the replacement no blank is directly followed by a quote |
| Text.RemoveAll | config_completions.py:243 | `replace(' ', '')` leaves no blank, a character other than a blank is in the result exactly when it is in the text, and a text without blanks is unchanged |
| Text.RemoveAllAppend | config_completions.py:243 | deleting the blanks of two texts joined is joining the two texts with their blanks deleted |
| Text.RemoveAllSingle | config_completions.py:243 | a single character is deleted exactly when it is a blank; with `RemoveAllAppend` this fixes the result, order and number of characters included |
| Paths.Realpath | open_file.py:55-64 | `realpath` returns nothing exactly for the empty text |
| Paths.RealpathOfFormat | open_file.py:55-64 | formatting a canonical path and passing it through `realpath` again gives the same path back |
| Paths.SplitUp | open_file.py:55-64 | the text `..` followed by the text of a path splits into `..` and the path's components |
| Paths.ResolveUp | open_file.py:55-64 | normalising `..` removes the last component of a path that has one |
| Paths.ResolveRootUp | open_file.py:55-64 | `..` at the root stays at the root |
| Paths.ResolveUpFrom | open_file.py:55-64 | normalising `..` and then a canonical path from a base leads below the base's parent |
| Paths.RealpathUp | open_file.py:55-64 | `realpath` of `..` followed by the text of a path is that path below the parent of the base it resolves against |
| Paths.SplitLast | open_file.py:114 | `os.path.split` of a canonical path: the root splits into itself and an empty name; any other path is its parent plus a proper last component |
| Worktree.IsWorkTreeChild | open_file.py:82-93 | a path is a working tree exactly when some existing path is its child called `.git`, file or directory |
| Worktree.GitPath | open_file.py:67-68 | the `.git` entry of a path lies directly below it and is canonical when the path is |
| Worktree.ParseGitfileAsWritten | open_file.py:71-79 | as written: a target exists exactly when the file is readable, starts with `gitdir: ` and has a non-blank rest, and it is that stripped rest made absolute against the process's working directory |
| Worktree.ParseGitfile | open_file.py:71-79 | the `.git` file of a working tree names a target exactly when the as-written parser finds one there, and the target is the stripped text made absolute against the working tree, the directory holding the file |
| Worktree.ParseGitfileReads | open_file.py:71-79 | an absolute target is the one the plugin's `parse_gitfile` returns; a relative one hangs below the working tree |
| Worktree.ParseGitfileIgnoresCwd | open_file.py:71-79 | read this way, a redirect names the same target whatever the process's working directory |
| Worktree.RedirectText | open_file.py:74-76 | the text between the prefix and the trailing whitespace of a redirect file is exactly what the parser reads |
| Worktree.ReadsText | open_file.py:71-79 | both readings of such a file resolve that text, the corrected one against the working tree and the as-written one against the process's working directory |
| Worktree.GitfileRoundTrip | open_file.py:71-79 | what git writes into the redirect file of a linked worktree or of a separate git directory (prefix, absolute target whose text does not end in whitespace, trailing whitespace) parses back as that target |
| Worktree.SubmoduleGitfileRoundTrip | open_file.py:71-79 | what git writes into the redirect file of a submodule directly below its superproject (`gitdir: ..` and the module's git directory relative to the superproject, whose text does not end in whitespace) parses back as that directory below the superproject; the as-written parser puts it below the parent of the process's working directory instead |
| Worktree.Climb | open_file.py:116-119 | the search loop stops with no result once the name is empty; a result holds a `.git` entry, lies on the path, and no longer prefix holds one |
| Worktree.ClimbStep | open_file.py:116-119 | one turn of the loop: when the path holds no `.git` entry, what the search from its parent finds is what the search from the path finds |
| Worktree.TopLevelOf | open_file.py:113-120 | the result is a proper ancestor holding `.git` with no nearer one holding it; there is no result exactly when no proper ancestor holds `.git` |
| Worktree.NearestAncestorFound | open_file.py:113-120 | conversely, the nearest proper ancestor holding `.git` is the result |
| Worktree.NoAncestorFound | open_file.py:113-120 | a path with no proper ancestor holding `.git` has no working tree |
| Worktree.TopLevelOfGitPath | open_file.py:113-120 | searching from a `.git` entry finds the working tree that holds it |
| Worktree.RevParseToplevel | open_file.py:96-120 | an empty file path has no working tree; any result holds a `.git` entry and is the nearest proper ancestor of the resolved path |
| Worktree.RevParseGitdir | open_file.py:123-128 | a git directory exists exactly when a working tree does; it is the redirect target when `.git` is a valid redirect file, else the `.git` entry itself |
| Worktree.RevParseCommondir | open_file.py:131-137 | a common directory exists exactly when a git directory does |
| Worktree.InitVariablesAsWritten | open_file.py:140-160 | as written, with the redirect read by `ParseGitfile`: no variables exactly when there is no working tree; a failure exactly when `.git` redirects to a target that lies in no working tree; whenever it returns variables they are the corrected ones |
| Worktree.InitVariables | open_file.py:140-160 | no variables exactly when there is no working tree; otherwise the work tree and git directory agree with `rev_parse_toplevel` and `rev_parse_gitdir`, and a plain `.git` directory is its own common directory |
| Worktree.InitVariablesPlain | open_file.py:151-153 | a `.git` that is no redirect gives git and common directory `.git` and the working tree as its own super working tree, in the as-written and in the corrected `init_variables` |
| Worktree.InitVariablesRedirected | open_file.py:147-150 | a redirect gives the target as git directory and the `.git` of the working tree holding it as common directory, in the as-written and in the corrected `init_variables`; when no working tree holds the target, the as-written code fails and the corrected one falls back |
| Worktree.CommondirAgreement | open_file.py:131-160 | `rev_parse_commondir` and `init_variables` name the same common directory |
| Worktree.CommondirAgreementAsWritten | open_file.py:131-160 | the same agreement holds wherever the as-written `init_variables` returns |
| WorktreeExamples.PlainRepository | open_file.py:140-160 | a file under `/repo/sub` resolves to `/repo` with `/repo/.git` as git and common directory |
| WorktreeExamples.LinkedWorktree | open_file.py:140-160 | a linked worktree `/wt` with a redirect to `/repo/.git/worktrees/wt` gets common directory `/repo/.git` and super working tree `/repo` |
| WorktreeExamples.SeparateGitDir | open_file.py:140-160 | a working tree whose redirect points to a git directory kept apart makes the as-written `init_variables` fail, while the corrected one agrees with `rev_parse_commondir` |
| WorktreeExamples.SubmoduleRedirect | open_file.py:71-79 | for the submodule `/w/lib`, whose `.git` holds `gitdir: ../.git/modules/lib`, with the editor running in "/", the plugin's `parse_gitfile` names `/.git/modules/lib`, which does not exist, and the corrected parser names `/w/.git/modules/lib` |
| ConfigKeys.IndexOf | config_completions.py:287 | the dictionary lookup finds the first entry with the name, and nothing exactly when no entry has it |
| ConfigKeys.FirstWithPrefix | config_completions.py:292-295 | the loop over the table stops at the first entry starting with the prefix, and runs off the end exactly when none does |
| ConfigKeys.FirstWithPrefixAt | config_completions.py:292-295 | conversely, the first entry starting with the prefix is where the loop stops |
| ConfigKeys.TemplatePrefix | config_completions.py:291 | `section[:section.find('.') + 1]` is a prefix of the section ending in its first dot |
| ConfigKeys.KnownKeys | config_completions.py:286-297 | non-empty keys come from an entry named like the section or sharing its part up to the first dot; an exact entry with keys wins; an undotted section without keyed entries gets none |
| ConfigKeys.FallbackToFirstTemplate | config_completions.py:288-297 | a dotted section without keys of its own gets the keys of the first entry sharing its prefix, and none when no entry shares it |
| ConfigKeys.KnownKeysFallback | config_completions.py:288-295 | an unknown dotted section takes the keys of the entry the prefix loop stops at |
| ConfigKeys.MergeSubsectionKeys | config_completions.py:133-138 | `merge.ours` gets the keys of `merge.<driver>`, the first `merge.` entry, not those of `merge.<tool>` |
| ConfigKeys.BranchSubsectionKeys | config_completions.py:10-13 | `branch.main` gets the keys of `branch.<name>`, not those of `branch` |
| ConfigKeys.RemoteSubsectionKeys | config_completions.py:169-175 | `remote.origin` gets the keys of `remote.<name>`; neither `remote` nor `remotes` starts with `remote.` |
| ConfigKeys.AliasHasNoKeys | config_completions.py:6 | `alias` is listed with no keys, so nothing is offered |
| ConfigCompletions.LastHeader | config_completions.py:234-238 | the loop keeps the last header of the leading run starting at or before the cursor, and none when the first header starts after it |
| ConfigCompletions.NearestHeader | config_completions.py:234-238 | with headers in document order that is the nearest header at or before the cursor, and none exactly when all start after it |
| ConfigCompletions.NormaliseSection | config_completions.py:240-243 | the normalised section holds no blank |
| ConfigCompletions.NormaliseSectionChars | config_completions.py:240-243 | normalising only drops header characters and writes dots |
| ConfigCompletions.SectionName | config_completions.py:225-244 | there is no section exactly when no header precedes the cursor or the region is empty; otherwise it is that header normalised |
| ConfigCompletions.SplitSection | config_completions.py:317 | `split('.', 1)` gives a dot-free first part that rejoins with a dot to the name |
| ConfigCompletions.SectionItem | config_completions.py:316-323 | a dotted name shows as `s0 "s1"` and inserts a snippet with the subsection as its field; an undotted one is shown and inserted as is |
| ConfigCompletions.SectionItems | config_completions.py:314-323 | one item per table entry, in table order |
| ConfigCompletions.HeaderRoundTrip | config_completions.py:240-243 | typing the header a section item shows, in brackets, reads back as the table name |
| ConfigCompletions.BranchHeaderExample | config_completions.py:240-243 | `[branch "main"]` reads as `branch.main` |
| ConfigCompletions.CoreHeaderExample | config_completions.py:240-243 | `[core]` reads as `core` |
| ConfigCompletions.WellFormedWithoutDelimiters | config_completions.py:316-317 | a name without delimiters and without a dot at either end splits into two plain parts |
| ConfigCompletions.TemplateHeaderExample | config_completions.py:316-320 | the `merge.<driver>` item shows `merge "<driver>"`, which reads back as `merge.<driver>` |
| ConfigCompletions.LineRest | config_completions.py:300-301 | the text from the cursor to its line's end: no line break, a prefix of the rest of the text |
| ConfigCompletions.KeyCompletions | config_completions.py:281-308 | key completions always suppress word completions; no or an empty section gives none; otherwise one item per known key |
| ConfigCompletions.KeyCompletionsListKnownKeys | config_completions.py:299-307 | the items name the known keys in order, each tagged `\tkey`, and insert the key followed by ` = ` exactly when the rest of the line has no `=` |
| ConfigCompletions.SectionCompletions | config_completions.py:310-325 | the intended cache: the answer is the section list, one item per entry, and it is kept for next time |
| ConfigCompletions.SectionCompletionsStable | config_completions.py:310-325 | asking again gives the same list and leaves the cache as it was |
| ConfigCompletions.SectionCompletionsAsWritten | config_completions.py:249-313 | as written: an unset cache is returned as is, so the answer is nothing |
| ConfigCompletions.SectionCompletionsAsWrittenEmpty | config_completions.py:249-325 | on a fresh listener the as-written method answers nothing while the table has sections to offer |
| ConfigCompletions.OnQueryCompletions | config_completions.py:264-279 | several cursors give nothing; one cursor gets sections in a header, nothing in a value and keys anywhere else, each exactly there |
| ConfigCompletions.OnQueryCompletionsAsWritten | config_completions.py:264-279 | as written: nothing inside a header; the same as the corrected dispatch everywhere else |
| Rebase.IsCommand | rebase.py:8 | every accepted command is a non-empty run of lower-case letters, hence one word where it is written |
| Rebase.BlankPrefix | rebase.py:13-15 | scanning from the line start skips exactly the leading spaces and tabs |
| Rebase.FirstWord | rebase.py:17 | the first word starts where the blanks end |
| Rebase.RewriteLine | rebase.py:17 | the leading blanks stay, the word is replaced by the command, and the rest of the line stays |
| Rebase.RewriteSetsFirstWord | rebase.py:13-17 | the rewritten line has the same leading blanks, and the command as first word when the editor reads it as one word |
| Rebase.RewriteIdempotent | rebase.py:11-17 | rewriting a line twice with the same command is the same as once, when the editor reads the command as one word there |
| Rebase.RewriteTimesOnce | rebase.py:11-17 | any number of selections on one line rewrite it as one does, when the editor reads the command as one word there |
| Rebase.Count | rebase.py:11 | the number of selections on a line is at most the number of selections, and zero exactly when none lies on the line |
| Rebase.CountIsMultiplicity | rebase.py:11 | that number is how often the line occurs among the selections |
| Rebase.SelectedLine | rebase.py:11-17 | a line no selection lies on comes out as it went in |
| Rebase.RewriteSelectionsAt | rebase.py:11-17 | applying the selections to the whole document leaves each line as the selections on it alone would |
| Rebase.SelectedLineTimes | rebase.py:11-17 | followed selection by selection, a line is rewritten once per selection on it |
| Rebase.RewriteSelectionsLine | rebase.py:11-17 | applying the selections one after the other rewrites each line once per selection that lies on it and leaves the others alone |
| Rebase.RewriteAll | rebase.py:11-17 | the loop over the selections applies them in order, the last one last |
| Rebase.Run | rebase.py:6-17 | an invalid command is reported and nothing changes; a valid one rewrites each line once per selection on it (`Count`), and leaves the document's line count alone |
| Rebase.RunLines | rebase.py:11-17 | a line no selection touches is unchanged; a selected line ends up rewritten once, with the command as its first word, when the editor reads the command as one word there |

## Left out

- File I/O and `os.path.exists` are not performed. The disk is a `FileSystem` value: the paths that exist, the contents of readable files, and the working directory. An unreadable file (the `OSError` branch) is a path missing from `files`.
- File contents are taken as already decoded text. `open(gitfile)` (open_file.py:73) decodes with the locale's encoding, and a `.git` file that does not decode raises `UnicodeDecodeError`, a `ValueError` that `except OSError` (open_file.py:77) does not catch, so it propagates out of `parse_gitfile` and `init_variables`. The model has no such error.
- Worktree.RevParseGitdir: a relative `gitdir: ` redirect is resolved by `ParseGitfile` against the directory holding the `.git` file, as git reads it, not against the process's working directory as `parse_gitfile` (open_file.py:76) does. For the submodule `/w/lib` whose `.git` holds `gitdir: ../.git/modules/lib`, with the editor running in "/", `rev_parse_gitdir` gives `/.git/modules/lib` and the model `/w/.git/modules/lib`. `Worktree.ParseGitfileAsWritten` and `WorktreeExamples.SubmoduleRedirect` state the plugin's reading.
- Worktree.RevParseCommondir: follows the corrected redirect, as `Worktree.RevParseGitdir` does. In the same submodule case `rev_parse_commondir` finds no working tree above `/.git/modules/lib` and gives `/.git/modules/lib` itself, and the model gives `/w/.git`.
- Worktree.InitVariablesAsWritten: follows the corrected redirect (open_file.py:146 through `parse_gitfile`), as `Worktree.RevParseGitdir` does; every other step is as written. In the same submodule case `rev_parse_toplevel` of `/.git/modules/lib` is `None` (open_file.py:149) and `git_path(None)` (open_file.py:150) raises `TypeError`, while the model resolves all four variables below `/w` (`/w/.git`, `/w/.git/modules/lib`, `/w`, `/w/lib`).
- Worktree.GitfileRoundTrip: requires the target's text not to end in whitespace. `.strip()` (open_file.py:76) also cuts whitespace that ends the last directory name, so `gitdir: /a/b \n` parses as `/a/b`, not `/a/b `. Such targets do not round-trip.
- Worktree.SubmoduleGitfileRoundTrip: requires the module directory's text not to end in whitespace, for the same reason. It is proved for a submodule directly below its superproject. A deeper one (`gitdir: ../../.git/modules/a/b`) takes the same steps, one `..` per level, but is not proved.
- Symbolic links are not modelled. `realpath` makes the text absolute against the working directory and normalises `.`, `..` and empty components. The Windows `_getfinalpathname` variant of `realpath` (open_file.py:6-50) is left out, being platform glue.
- The editor's `None` file name for an unsaved view is the empty text, which is false in Python just as `None` is.
- The editor glue is left out: `GitOpenFileCommand` (`is_enabled`, `run`, `expand_variables`, opening the file), `is_applicable`, `applies_to_primary_view_only`, and `sublime.error_message` (modelled as the `InvalidCommand` outcome).
- `ConfigKeys.Keys` holds 24 of the 82 entries of `KEYS` (config_completions.py:4-222), copied verbatim and in declaration order: `add`, `alias`, `am`, `apply`, `branch`, `branch.<name>`, `commit`, `credential`, `credential.<url>`, `difftool`, `difftool.<tool>`, `man.<tool>`, `man`, `merge.<driver>`, `merge`, `merge.<tool>`, `mergetool`, `pager`, `pretty`, `remote`, `remote.<name>`, `remotes`, `sendemail.<identity>` and `user`. The other 58 are left out to keep the literal small enough to reason about. Among them are `core` (:28), `diff.<driver>` (:50), `filter.<driver>` (:60), `notes.<name>` (:142), `submodule.<name>` (:207) and `url.<base>` (:218). For those sections, and for dotted sections whose part up to the first dot only they share (`diff.foo`, `submodule.lib`, `url.https://host/`), the model offers no keys where the plugin offers some. No left-out entry starts with the part up to the dot of a kept template and comes before it, so for every section named in, or falling back to, a kept entry the model answers as the full table does. The lookup lemmas are proved for any table.
- ConfigKeys.FirstWithPrefix: walks the table in declaration order, which is the iteration order of a Python `dict` from 3.7 on. The plugin also runs under older interpreters (open_file.py:9-11 tests for versions before 3.8), and Sublime's 3.3 plugin host iterates a `dict` in hash order with string hashes randomised per process. There, `merge.ours` may get the keys of `merge.<tool>` instead of `merge.<driver>`. The model fixes the declaration order.
- ConfigCompletions.HeaderRoundTrip: proved for any well-formed name. That every name in `ConfigKeys.Keys` is well-formed is not proved, because unfolding all 24 names character by character is too costly. The three example lemmas show it for `branch.main`, `core` and `merge.<driver>`.
- ConfigCompletions.OnQueryCompletions: requires at least one cursor, since `on_query_completions` indexes `locations[0]`. The editor always passes one.
- ConfigCompletions.View: the scope tests (`match_selector`) and the header regions (`find_by_selector`) are inputs, not computed from a syntax definition.
- Rebase.IsCommand: its contract states the shape of the accepted commands (one lower-case word), not which seven they are; the list itself is the literal in its body.
- Rebase.FirstWord: the editor's word boundary (`view.word`) is a parameter `wordEnd`. The word is taken to start at the first non-blank position and to end within the line. How Sublime delimits words is not modelled.
- Rebase.Run: a selection is the index of the line its start lies on (`view.line(sel).a`). Lines are handled in selection order, and lines never shift, since a command contains no line break.
- The completion tuple's `sublime.INHIBIT_WORD_COMPLETIONS` flag is the `KeyList` constructor. `None` is `NoCompletions`.

## Findings

| source | as written | input that shows it | evidently intended | confidence | as-written member | corrected member |
|---|---|---|---|---|---|---|
| config_completions.py:249-325 | `section_completions` reads `self._completions` in a `try` that catches `AttributeError`, but the class sets `_completions = None`. The read never fails, so the list is never built and `None` is returned | any completion request with the cursor inside `[...]` on a fresh listener | build the section list on first use, cache it, and return it | not executed | ConfigCompletions.SectionCompletionsAsWrittenEmpty | ConfigCompletions.SectionCompletionsStable |
| open_file.py:71-79 | `parse_gitfile` passes the text after `gitdir: ` to `realpath`, which resolves a relative text against the process's working directory. Git resolves it against the directory holding the `.git` file, and writes a relative one for every submodule | the submodule `/w/lib` with `/w/lib/.git` containing `gitdir: ../.git/modules/lib` and the editor running in "/": `parse_gitfile` names `/.git/modules/lib` | resolve a relative target against the directory of the `.git` file, so that submodules resolve wherever the editor runs | not executed | WorktreeExamples.SubmoduleRedirect | Worktree.SubmoduleGitfileRoundTrip |
| open_file.py:147-150 | when `.git` redirects to a git directory that no working tree holds, `rev_parse_toplevel(gitdir)` is `None` and `git_path(None)` raises `TypeError` | `/w/.git` containing `gitdir: /srv/repo.git`, as `git init --separate-git-dir` leaves it | the fallback `rev_parse_commondir` uses: the git directory is its own common directory | not executed | WorktreeExamples.SeparateGitDir | Worktree.CommondirAgreement |

=== FILE: config_completions.dfy ===
/** Completions in a git config file: section names inside `[...]` headers,
    key names inside a section, nothing inside a value. The editor is
    reduced to what the listener asks of it: the header regions in document
    order, the text, and two scope tests at a position. */
module ConfigCompletions {
  import opened Text
  import opened ConfigKeys

  /** A `[...]` header region: where it starts and the text it covers. */
  datatype Region = Region(start: nat, text: string)

  /** A completion: the text shown in the list and the text inserted. */
  datatype Item = Item(trigger: string, contents: string)

  /** What the listener hands back to the editor. `KeyList` stands for the
      pair of a list and the flag that suppresses word completions. */
  datatype Completions = NoCompletions | KeyList(items: seq<Item>) | SectionList(items: seq<Item>)

  /** The editor state the listener consults. `headers` are the regions
      scoped `meta.brackets.git.config`, in document order; `inBrackets` and
      `inValue` are the scope tests `meta.brackets` and `meta.mapping.value`. */
  datatype View = View(text: string, headers: seq<Region>, inBrackets: nat -> bool, inValue: nat -> bool)

  /** The loop over the header regions: the last one of the leading run of
      regions that start at or before `pt`; the loop stops at the first
      region starting after `pt`. */
  function LastHeader(regions: seq<Region>, pt: nat): (r: Option<nat>)
    ensures r.None? <==> regions == [] || regions[0].start > pt
    ensures r.Some? ==> r.value < |regions| && forall j :: 0 <= j <= r.value ==> regions[j].start <= pt
    ensures r.Some? ==> r.value + 1 == |regions| || regions[r.value + 1].start > pt
  {
    if regions == [] || regions[0].start > pt then None
    else
      match LastHeader(regions[1..], pt)
      case None => Some(0)
      case Some(k) => Some(k + 1)
  }

  /** Regions in document order. */
  predicate Sorted(regions: seq<Region>) {
    forall i, j :: 0 <= i < j < |regions| ==> regions[i].start <= regions[j].start
  }

  /** With the regions in document order, the loop finds the nearest header
      at or before `pt`, and finds none exactly when every header starts
      after `pt`. */
  lemma NearestHeader(regions: seq<Region>, pt: nat)
    requires Sorted(regions)
    ensures LastHeader(regions, pt).Some? ==>
      forall j :: 0 <= j < |regions| && regions[j].start <= pt ==> j <= LastHeader(regions, pt).value
    ensures LastHeader(regions, pt).None? <==> forall j :: 0 <= j < |regions| ==> regions[j].start > pt
  {
    var r := LastHeader(regions, pt);
    if r.Some? {
      forall j | 0 <= j < |regions| && regions[j].start <= pt ensures j <= r.value {
      }
    }
  }

  /** The characters `strip` removes from a header: brackets, tabs, blanks
      and quotes. */
  const HeaderDelimiters: set<char> := {'[', ']', '\t', ' ', '"'}

  /** A header's text in dotted form: delimiters stripped from both ends,
      each blank-quote pair turned into a dot, the remaining blanks dropped. */
  function NormaliseSection(header: string): (r: string)
    ensures ' ' !in r
  {
    RemoveAll(ReplacePair(Strip(header, HeaderDelimiters), ' ', '"', '.'), ' ')
  }

  /** Normalising only drops characters of the header and writes dots. */
  lemma NormaliseSectionChars(header: string)
    ensures forall c :: c in NormaliseSection(header) ==> c == '.' || c in header
  {
    var stripped := Strip(header, HeaderDelimiters);
    ReplacePairKeeps(stripped, ' ', '"', '.');
    var i := |header| - |StripLeft(header, HeaderDelimiters)|;
    forall c | c in stripped ensures c in header {
      var k :| 0 <= k < |stripped| && stripped[k] == c;
      assert header[i + k] == c;
    }
  }

  /** The section the cursor is in: the nearest header's normalised text, or
      nothing when no header precedes `pt` or the header region is empty (an
      empty region is false in a boolean test). */
  function SectionName(view: View, pt: nat): (r: Option<string>)
    ensures r.None? <==> (LastHeader(view.headers, pt).None? || view.headers[LastHeader(view.headers, pt).value].text == "")
    ensures r.Some? ==> r.value == NormaliseSection(view.headers[LastHeader(view.headers, pt).value].text)
  {
    match LastHeader(view.headers, pt)
    case None => None
    case Some(k) =>
      if view.headers[k].text == "" then None else Some(NormaliseSection(view.headers[k].text))
  }

  /** A name without header delimiters: what can sit between the brackets
      and come back unchanged. */
  predicate IsPlainName(s: string) {
    s != [] && HasNoDelimiter(s)
  }

  predicate HasNoDelimiter(s: string) {
    '[' !in s && ']' !in s && '\t' !in s && ' ' !in s && '"' !in s
  }

  lemma NoDelimiterAt(s: string)
    requires HasNoDelimiter(s)
    ensures forall i :: 0 <= i < |s| ==> s[i] !in HeaderDelimiters
  {
  }

  /** The two halves of a dotted table name, split at its first dot. */
  function SplitSection(name: string): (r: (string, string))
    requires '.' in name
    ensures r.0 + "." + r.1 == name && '.' !in r.0
  {
    var i := FirstIndex(name, '.');
    assert name == name[..i] + "." + name[i + 1..];
    (name[..i], name[i + 1..])
  }

  /** What a header for `name` reads like once typed: `s0 "s1"` for a dotted
      name, the name itself otherwise. */
  function HeaderText(name: string): string {
    if '.' in name then
      var (s0, s1) := SplitSection(name);
      s0 + " \"" + s1 + "\""
    else name
  }

  /** A table name whose header can be written: each part plain. */
  predicate WellFormedName(name: string) {
    if '.' in name then IsPlainName(SplitSection(name).0) && IsPlainName(SplitSection(name).1)
    else IsPlainName(name)
  }

  /** One entry of the section list: a dotted name becomes a snippet with the
      subsection as its first field, an undotted one is inserted as is. */
  function SectionItem(name: string): (item: Item)
    ensures '.' !in name ==> item == Item(name + "\tsection", name)
    ensures '.' in name ==>
      var (s0, s1) := SplitSection(name);
      item.contents == s0 + " \"${1:" + s1 + "}\""
    ensures item.trigger == HeaderText(name) + "\tsection"
  {
    if '.' in name then
      var (s0, s1) := SplitSection(name);
      Item(s0 + " \"" + s1 + "\"\tsection", s0 + " \"${1:" + s1 + "}\"")
    else Item(name + "\tsection", name)
  }

  /** The section list: one item per table entry, in table order. */
  function SectionItems(table: Table): (items: seq<Item>)
    ensures |items| == |table|
    ensures forall i :: 0 <= i < |table| ==> items[i] == SectionItem(table[i].name)
  {
    if table == [] then [] else [SectionItem(table[0].name)] + SectionItems(table[1..])
  }

  /** Typing the header a section completion shows, between brackets, and
      reading it back gives the table name again. */
  lemma HeaderRoundTrip(name: string)
    requires WellFormedName(name)
    ensures NormaliseSection("[" + HeaderText(name) + "]") == name
  {
    if '.' in name {
      var (s0, s1) := SplitSection(name);
      DottedHeaderRoundTrip(s0, s1);
    } else {
      PlainHeaderRoundTrip(name);
    }
  }

  lemma PlainHeaderRoundTrip(name: string)
    requires IsPlainName(name)
    ensures NormaliseSection("[" + name + "]") == name
  {
    StripBracketed(name);
    ReplacePairWithoutBlank(name);
  }

  lemma StripBracketed(name: string)
    requires IsPlainName(name)
    ensures Strip("[" + name + "]", HeaderDelimiters) == name
  {
    var h := "[" + name + "]";
    NoDelimiterAt(name);
    assert h == "[" + (name + "]");
    StripLeftDropped("[", name + "]", HeaderDelimiters);
    assert StripLeft(h, HeaderDelimiters) == name + "]";
    StripRightDropped(name, "]", HeaderDelimiters);
  }

  lemma ReplacePairWithoutBlank(s: string)
    requires ' ' !in s
    ensures ReplacePair(s, ' ', '"', '.') == s
  {
    ReplacePairCopiesPrefix(s, "", ' ', '"', '.');
    assert s + "" == s;
  }

  lemma DottedHeaderRoundTrip(s0: string, s1: string)
    requires IsPlainName(s0) && IsPlainName(s1)
    ensures NormaliseSection("[" + (s0 + " \"" + s1 + "\"") + "]") == s0 + "." + s1
  {
    StripQuotedHeader(s0, s1);
    ReplaceQuotedHeader(s0, s1);
  }

  lemma StripQuotedHeader(s0: string, s1: string)
    requires IsPlainName(s0) && IsPlainName(s1)
    ensures Strip("[" + (s0 + " \"" + s1 + "\"") + "]", HeaderDelimiters) == s0 + " \"" + s1
  {
    var inner := s0 + " \"" + s1;
    var h := "[" + (s0 + " \"" + s1 + "\"") + "]";
    NoDelimiterAt(s0);
    NoDelimiterAt(s1);
    assert h == "[" + (inner + "\"]");
    StripLeftDropped("[", inner + "\"]", HeaderDelimiters);
    assert (inner + "\"]")[0] == s0[0];
    assert StripLeft(h, HeaderDelimiters) == inner + "\"]";
    StripRightDropped(inner, "\"]", HeaderDelimiters);
    assert inner[|inner| - 1] == s1[|s1| - 1];
  }

  lemma ReplaceQuotedHeader(s0: string, s1: string)
    requires ' ' !in s0 && ' ' !in s1
    ensures ReplacePair(s0 + " \"" + s1, ' ', '"', '.') == s0 + "." + s1
  {
    assert s0 + " \"" + s1 == s0 + (" \"" + s1);
    ReplacePairCopiesPrefix(s0, " \"" + s1, ' ', '"', '.');
    assert (" \"" + s1)[2..] == s1;
    ReplacePairWithoutBlank(s1);
    assert ReplacePair(" \"" + s1, ' ', '"', '.') == "." + s1;
  }

  /** `[branch "main"]` reads as `branch.main`. */
  lemma BranchHeaderExample(header: string)
    requires header == "[branch \"main\"]"
    ensures NormaliseSection(header) == "branch.main"
  {
    BranchHeaderSpelled(header);
    DottedHeaderRoundTrip("branch", "main");
    BranchMainSpelled();
  }

  lemma BranchHeaderSpelled(header: string)
    requires header == "[branch \"main\"]"
    ensures header == "[" + ("branch" + " \"" + "main" + "\"") + "]"
  {
  }

  lemma BranchMainSpelled()
    ensures "branch" + "." + "main" == "branch.main"
  {
    assert forall k :: 0 <= k < 11 ==> ("branch" + "." + "main")[k] == "branch.main"[k];
  }

  /** `[core]` reads as `core`. */
  lemma CoreHeaderExample(header: string)
    requires header == "[core]"
    ensures NormaliseSection(header) == "core"
  {
    assert header == "[" + "core" + "]";
    PlainHeaderRoundTrip("core");
  }

  /** Splitting at the first dot undoes joining a dot-free part to the rest. */
  lemma SplitSectionOf(a: string, b: string)
    requires '.' !in a
    ensures '.' in a + "." + b && SplitSection(a + "." + b) == (a, b)
  {
    var s := a + "." + b;
    assert s[|a|] == '.';
    assert s[..|a|] == a;
    assert FirstIndex(s, '.') == |a|;
    assert s[|a| + 1..] == b;
  }

  /** A name free of header delimiters whose first and last characters are
      not dots splits into two plain parts. */
  lemma WellFormedWithoutDelimiters(name: string)
    requires name != [] && name[0] != '.' && name[|name| - 1] != '.'
    requires HasNoDelimiter(name)
    ensures WellFormedName(name)
  {
    if '.' in name {
      var (s0, s1) := SplitSection(name);
      assert name == s0 + "." + s1;
      assert s0 != [];
      assert s1 != [];
      assert forall c :: c in s0 || c in s1 ==> c in name;
    }
  }

  /** The completion offered for `merge.<driver>` reads `merge "<driver>"`
      once typed, and that header reads back as `merge.<driver>`. */
  lemma TemplateHeaderExample(name: string)
    requires name == "merge.<driver>"
    ensures HeaderText(name) == "merge \"<driver>\""
    ensures NormaliseSection("[" + HeaderText(name) + "]") == name
  {
    MergeDriverSpelled(name);
    SplitSectionOf("merge", "<driver>");
    MergeDriverPlain();
    DottedHeaderRoundTrip("merge", "<driver>");
  }

  lemma MergeDriverPlain()
    ensures IsPlainName("merge") && IsPlainName("<driver>")
  {
  }

  lemma MergeDriverSpelled(name: string)
    requires name == "merge.<driver>"
    ensures name == "merge" + "." + "<driver>"
    ensures "merge" + " \"" + "<driver>" + "\"" == "merge \"<driver>\""
  {
    assert forall k :: 0 <= k < 14 ==> ("merge" + "." + "<driver>")[k] == name[k];
    assert forall k :: 0 <= k < 16 ==> ("merge" + " \"" + "<driver>" + "\"")[k] == "merge \"<driver>\""[k];
  }

  /** The text from `pt` to the end of its line. */
  function LineRest(text: string, pt: nat): (r: string)
    ensures '\n' !in r
    ensures pt <= |text| ==> r <= text[pt..]
    ensures pt <= |text| ==> pt + |r| == |text| || text[pt + |r|] == '\n'
    ensures pt >= |text| ==> r == ""
    decreases |text| - pt
  {
    if pt >= |text| || text[pt] == '\n' then ""
    else [text[pt]] + LineRest(text, pt + 1)
  }

  /** Key completions in `section`: nothing without a section or without
      known keys; otherwise one item per known key, followed by ` = ` unless
      the rest of the line already has an `=`. */
  function KeyCompletions(table: Table, section: Option<string>, rest: string): (r: Completions)
    ensures r.KeyList?
    ensures section.None? || section.value == "" ==> r.items == []
    ensures section.Some? && section.value != "" ==> |r.items| == |KnownKeys(table, section.value)|
  {
    match section
    case None => KeyList([])
    case Some(name) =>
      if name == "" then KeyList([])
      else
        var keys := KnownKeys(table, name);
        var sep := if '=' in rest then "" else " = ";
        KeyList(seq(|keys|, i requires 0 <= i < |keys| => Item(keys[i] + "\tkey", keys[i] + sep)))
  }

  /** The key an item completes: its trigger without the `\tkey` tag. */
  function KeyOf(item: Item): string {
    if |item.trigger| >= |"\tkey"| then item.trigger[..|item.trigger| - |"\tkey"|] else item.trigger
  }

  /** The items name exactly the known keys, in table order, and each inserts
      its key followed by the separator, which is empty exactly when the rest
      of the line holds an `=`. */
  lemma KeyCompletionsListKnownKeys(table: Table, section: string, rest: string)
    requires section != ""
    ensures var items := KeyCompletions(table, Some(section), rest).items;
      && seq(|items|, i requires 0 <= i < |items| => KeyOf(items[i])) == KnownKeys(table, section)
      && forall i :: 0 <= i < |items| ==>
           && items[i].trigger == KeyOf(items[i]) + "\tkey"
           && (items[i].contents == KeyOf(items[i]) <==> '=' in rest)
           && ('=' !in rest ==> items[i].contents == KeyOf(items[i]) + " = ")
  {
    var items := KeyCompletions(table, Some(section), rest).items;
    var keys := KnownKeys(table, section);
    forall i | 0 <= i < |items| ensures KeyOf(items[i]) == keys[i] {
      assert items[i].trigger == keys[i] + "\tkey";
      assert items[i].trigger[..|items[i].trigger| - |"\tkey"|] == keys[i];
    }
  }

  /** The section list as the listener means to serve it: built from the
      table on first use and kept. */
  function SectionCompletions(table: Table, cache: Option<seq<Item>>): (r: (seq<Item>, Option<seq<Item>>))
    requires cache.None? || cache == Some(SectionItems(table))
    ensures r.1 == Some(r.0) && |r.0| == |table|
    ensures forall i :: 0 <= i < |table| ==> r.0[i] == SectionItem(table[i].name)
  {
    match cache
    case Some(items) => (items, cache)
    case None => (SectionItems(table), Some(SectionItems(table)))
  }

  /** Asking again changes nothing: the second answer is the first one and
      the cache stays as it was. */
  lemma SectionCompletionsStable(table: Table, cache: Option<seq<Item>>)
    requires cache.None? || cache == Some(SectionItems(table))
    ensures var (first, next) := SectionCompletions(table, cache);
      SectionCompletions(table, next) == (first, next)
  {
  }

  /** The listener's `section_completions` as written: reading the attribute
      never fails, since the class initialises it, so the cached value comes
      back as is and the list is never built. */
  function SectionCompletionsAsWritten(cache: Option<seq<Item>>): (r: Option<seq<Item>>)
    ensures cache.None? ==> r.None?
  {
    cache
  }

  /** On a fresh listener the as-written method answers nothing although the
      table has sections to offer. */
  lemma SectionCompletionsAsWrittenEmpty()
    ensures SectionCompletionsAsWritten(None) == None
    ensures SectionCompletions(Keys, None).0 != []
  {
    assert Keys != [];
  }

  /** The completion request. More than one cursor gives nothing, since the
      cursors may sit in different sections. A cursor inside a header gets
      the section list, inside a value nothing, anywhere else the keys of
      its section. */
  function OnQueryCompletions(table: Table, view: View, locations: seq<nat>): (r: Completions)
    requires |locations| >= 1
    ensures |locations| > 1 ==> r == NoCompletions
    ensures |locations| == 1 ==>
      && (r.SectionList? <==> view.inBrackets(locations[0]))
      && (r.NoCompletions? <==> !view.inBrackets(locations[0]) && view.inValue(locations[0]))
      && (r.KeyList? <==> !view.inBrackets(locations[0]) && !view.inValue(locations[0]))
    ensures r.SectionList? ==> r.items == SectionItems(table)
    ensures r.KeyList? ==>
      r == KeyCompletions(table, SectionName(view, locations[0]), LineRest(view.text, locations[0]))
  {
    if |locations| > 1 then NoCompletions
    else
      var pt := locations[0];
      if view.inBrackets(pt) then SectionList(SectionCompletions(table, None).0)
      else if view.inValue(pt) then NoCompletions
      else KeyCompletions(table, SectionName(view, pt), LineRest(view.text, pt))
  }

  /** The request as written: inside a header it passes on what
      `section_completions` returns, which is nothing. */
  function OnQueryCompletionsAsWritten(table: Table, view: View, locations: seq<nat>): (r: Completions)
    requires |locations| >= 1
    ensures |locations| == 1 && view.inBrackets(locations[0]) ==> r == NoCompletions
    ensures !(|locations| == 1 && view.inBrackets(locations[0])) ==> r == OnQueryCompletions(table, view, locations)
  {
    if |locations| > 1 then NoCompletions
    else
      var pt := locations[0];
      if view.inBrackets(pt) then
        match SectionCompletionsAsWritten(None)
        case None => NoCompletions
        case Some(items) => SectionList(items)
      else if view.inValue(pt) then NoCompletions
      else KeyCompletions(table, SectionName(view, pt), LineRest(view.text, pt))
  }
}

=== FILE: config_keys.dfy ===
/** The table of known git-config keys and the lookup that completes keys
    inside a section. The table is an ordered association list: the order of
    its entries decides which parameterised section (`merge.<driver>`,
    `branch.<name>`) a concrete subsection such as `merge.ours` falls back to. */
module ConfigKeys {
  import opened Text

  /** One table entry: a section name, possibly with a `<placeholder>`
      subsection, and the keys known for it. */
  datatype Entry = Entry(name: string, keys: seq<string>)

  type Table = seq<Entry>

  /** A slice of the plugin's table, in its declaration order. The entries
      are copied verbatim, including the two-keys-in-one-string entry of `am`
      and the trailing blank of `xmailer ` in `sendemail.<identity>`. */
  const Keys: Table := [
    Entry("add", ["ignoreErrors"]),
    Entry("alias", []),
    Entry("am", ["keepcr, threeWay"]),
    Entry("apply", ["ignoreWhitespace", "whitespace"]),
    Entry("branch", ["autoSetupMerge", "autoSetupRebase"]),
    Entry("branch.<name>", ["description", "merge", "mergeOptions", "pushRemote", "rebase", "remote"]),
    Entry("commit", ["cleanup", "gpgSign", "status", "template", "verbose"]),
    Entry("credential", ["helper", "useHttpPath", "username", "ignoreSIGHUP"]),
    Entry("credential.<url>", ["helper", "useHttpPath", "username", "ignoreSIGHUP"]),
    Entry("difftool", ["prompt"]),
    Entry("difftool.<tool>", ["cmd", "path"]),
    Entry("man.<tool>", ["cmd", "path"]),
    Entry("man", ["viewer"]),
    Entry("merge.<driver>", ["driver", "name", "recursive"]),
    Entry("merge", ["branchdesc", "conflictStyle", "defaultToUpstream", "ff", "log",
                    "renameLimit", "renormalize", "stat", "tool", "verbosity"]),
    Entry("merge.<tool>", ["cmd", "path", "trustExitCode"]),
    Entry("mergetool", ["keepBackup", "keepTemporaries", "meld.hasOutput", "prompt", "writeToTemp"]),
    Entry("pager", []),
    Entry("pretty", []),
    Entry("remote", ["pushDefault"]),
    Entry("remote.<name>", [
      "fetch", "mirror", "proxy", "proxyAuthMethod", "prune", "push",
      "pushurl", "receivepack", "skipDefaultUpdate", "skipFetchAll",
      "tagOpt", "uploadpack", "url", "vcs"]),
    Entry("remotes", []),
    Entry("sendemail.<identity>", [
      "aliasesFile", "aliasFileType", "annotate", "bcc", "cc", "ccCmd",
      "chainReplyTo", "confirm", "envelopeSender", "from", "multiEdit",
      "signedoffbycc", "smtpPass", "suppresscc", "suppressFrom", "to",
      "smtpDomain", "smtpServer", "smtpServerPort", "smtpServerOption",
      "smtpUser", "thread", "transferEncoding", "validate", "xmailer "]),
    Entry("user", ["email", "name", "signingKey", "useConfigOnly"])
  ]

  /** Position of the entry called `name`: the dictionary lookup `KEYS.get`,
      which finds the first entry with the name, and finds nothing exactly
      when no entry has it. */
  function IndexOf(table: Table, name: string): (r: Option<nat>)
    ensures r.Some? ==>
      && r.value < |table| && table[r.value].name == name
      && forall j :: 0 <= j < r.value ==> table[j].name != name
    ensures r.None? <==> forall j :: 0 <= j < |table| ==> table[j].name != name
  {
    IndexFromFirst(table, name, 0);
    IndexFrom(table, name, 0)
  }

  /** The first entry called `name` at or after position `from`. */
  function IndexFrom(table: Table, name: string, from: nat): Option<nat>
    requires from <= |table|
    decreases |table| - from
  {
    if from == |table| then None
    else if table[from].name == name then Some(from)
    else IndexFrom(table, name, from + 1)
  }

  lemma {:induction false} IndexFromFirst(table: Table, name: string, from: nat)
    requires from <= |table|
    ensures IndexFrom(table, name, from).Some? ==>
      var i := IndexFrom(table, name, from).value;
      && from <= i < |table| && table[i].name == name
      && forall j :: from <= j < i ==> table[j].name != name
    ensures IndexFrom(table, name, from).None? <==> forall j :: from <= j < |table| ==> table[j].name != name
    decreases |table| - from
  {
    if from < |table| && table[from].name != name {
      IndexFromFirst(table, name, from + 1);
    }
  }

  /** Position of the first entry, in declaration order, whose name starts
      with `prefix`: the loop over the table in the fallback lookup, which
      stops at the first such entry and runs off the end exactly when no
      entry starts with the prefix. */
  function FirstWithPrefix(table: Table, prefix: string): (r: Option<nat>)
    ensures r.Some? ==>
      && r.value < |table| && prefix <= table[r.value].name
      && forall j :: 0 <= j < r.value ==> !(prefix <= table[j].name)
    ensures r.None? <==> forall j :: 0 <= j < |table| ==> !(prefix <= table[j].name)
  {
    PrefixFromFirst(table, prefix, 0);
    PrefixFrom(table, prefix, 0)
  }

  function PrefixFrom(table: Table, prefix: string, from: nat): Option<nat>
    requires from <= |table|
    decreases |table| - from
  {
    if from == |table| then None
    else if prefix <= table[from].name then Some(from)
    else PrefixFrom(table, prefix, from + 1)
  }

  lemma {:induction false} PrefixFromFirst(table: Table, prefix: string, from: nat)
    requires from <= |table|
    ensures PrefixFrom(table, prefix, from).Some? ==>
      var i := PrefixFrom(table, prefix, from).value;
      && from <= i < |table| && prefix <= table[i].name
      && forall j :: from <= j < i ==> !(prefix <= table[j].name)
    ensures PrefixFrom(table, prefix, from).None? <==> forall j :: from <= j < |table| ==> !(prefix <= table[j].name)
    decreases |table| - from
  {
    if from < |table| && !(prefix <= table[from].name) {
      PrefixFromFirst(table, prefix, from + 1);
    }
  }

  /** The entry at `i` is the one the loop stops at when it is the first
      whose name starts with the prefix. */
  lemma FirstWithPrefixAt(table: Table, prefix: string, i: nat)
    requires i < |table| && prefix <= table[i].name
    requires forall j :: 0 <= j < i ==> !(prefix <= table[j].name)
    ensures FirstWithPrefix(table, prefix) == Some(i)
  {
    var r := FirstWithPrefix(table, prefix);
    assert r.Some?;
    assert !(r.value < i) && !(r.value > i);
  }

  /** The section part of a dotted name, with its dot: `merge.` for
      `merge.ours`, `section[:section.find('.') + 1]`. */
  function TemplatePrefix(section: string): (p: string)
    requires '.' in section
    ensures p <= section && p != [] && p[|p| - 1] == '.'
    ensures '.' !in p[..|p| - 1]
  {
    section[..FirstIndex(section, '.') + 1]
  }

  /** The keys offered inside `section`: those of the entry with exactly that
      name when it has any; otherwise, for a dotted section, those of the
      first entry that shares its part up to the first dot; otherwise none. */
  function KnownKeys(table: Table, section: string): (keys: seq<string>)
    ensures keys != [] ==>
      exists i :: 0 <= i < |table| && table[i].keys == keys &&
        (table[i].name == section || ('.' in section && TemplatePrefix(section) <= table[i].name))
    ensures forall i :: (0 <= i < |table| && table[i].name == section && table[i].keys != []
      && (forall j :: 0 <= j < i ==> table[j].name != section)) ==> keys == table[i].keys
    ensures '.' !in section && (forall i :: 0 <= i < |table| && table[i].name == section ==> table[i].keys == [])
      ==> keys == []
  {
    var exact := IndexOf(table, section);
    if exact.Some? && table[exact.value].keys != [] then table[exact.value].keys
    else if '.' in section then
      match FirstWithPrefix(table, TemplatePrefix(section))
      case Some(j) => table[j].keys
      case None => []
    else []
  }

  /** The fallback in full: a dotted section without keys of its own takes
      the keys of the first entry sharing its prefix, and has none when no
      entry does. */
  lemma {:induction false} FallbackToFirstTemplate(table: Table, section: string)
    requires '.' in section
    requires forall i :: 0 <= i < |table| && table[i].name == section ==> table[i].keys == []
    ensures forall j :: (0 <= j < |table| && TemplatePrefix(section) <= table[j].name
      && (forall i :: 0 <= i < j ==> !(TemplatePrefix(section) <= table[i].name))) ==> KnownKeys(table, section) == table[j].keys
    ensures (forall j :: 0 <= j < |table| ==> !(TemplatePrefix(section) <= table[j].name)) ==> KnownKeys(table, section) == []
  {
    var prefix := TemplatePrefix(section);
    var r := FirstWithPrefix(table, prefix);
    forall j | 0 <= j < |table| && prefix <= table[j].name && (forall i :: 0 <= i < j ==> !(prefix <= table[i].name))
      ensures KnownKeys(table, section) == table[j].keys
    {
      assert r.Some?;
      assert r.value == j;
    }
  }

  lemma TemplatePrefixOf(a: string, b: string)
    requires '.' !in a
    ensures '.' in a + "." + b && TemplatePrefix(a + "." + b) == a + "."
  {
    var s := a + "." + b;
    assert s[|a|] == '.';
    var k := FirstIndex(s, '.');
    assert s[..|a|] == a;
    assert k == |a|;
  }

  lemma KnownKeysFallback(table: Table, section: string, j: nat)
    requires '.' in section && IndexOf(table, section) == None
    requires FirstWithPrefix(table, TemplatePrefix(section)) == Some(j)
    ensures j < |table| && KnownKeys(table, section) == table[j].keys
  {
  }

  /** A subsection of `merge` gets the keys of `merge.<driver>`, the first
      `merge.` entry in declaration order, and not those of `merge.<tool>`. */
  lemma MergeSubsectionKeys(section: string)
    requires section == "merge.ours"
    ensures Keys[13].name == "merge.<driver>" && Keys[15].name == "merge.<tool>"
    ensures KnownKeys(Keys, section) == Keys[13].keys
    ensures KnownKeys(Keys, section) != Keys[15].keys
  {
    MergeOursUnknown(section);
    MergeOursPrefix(section);
    MergeTemplateFirst(TemplatePrefix(section));
    KnownKeysFallback(Keys, section, 13);
    MergeTemplatesDiffer();
  }

  lemma MergeOursUnknown(section: string)
    requires section == "merge.ours"
    ensures IndexOf(Keys, section) == None
  {
    assert forall j :: 0 <= j < |Keys| ==> Keys[j].name != "merge.ours";
  }

  lemma MergeOursPrefix(section: string)
    requires section == "merge.ours"
    ensures '.' in section && TemplatePrefix(section) == "merge."
  {
    assert section == "merge" + "." + "ours" by {
      assert forall k :: 0 <= k < 10 ==> section[k] == ("merge" + "." + "ours")[k];
    }
    TemplatePrefixOf("merge", "ours");
    assert forall k :: 0 <= k < 6 ==> ("merge" + ".")[k] == "merge."[k];
  }

  lemma MergeTemplateFirst(prefix: string)
    requires prefix == "merge."
    ensures FirstWithPrefix(Keys, prefix) == Some(13)
  {
    MergeNamesBefore(prefix);
    FirstWithPrefixAt(Keys, prefix, 13);
  }

  lemma MergeNamesBefore(prefix: string)
    requires prefix == "merge."
    ensures 13 < |Keys| && prefix <= Keys[13].name
    ensures forall j :: 0 <= j < 13 ==> !(prefix <= Keys[j].name)
  {
    assert prefix <= Keys[13].name;
    assert Keys[12].name[1] != 'e' && Keys[11].name[1] != 'e';
    assert forall j :: 0 <= j < 11 ==> Keys[j].name != [] && Keys[j].name[0] != 'm';
  }

  lemma MergeTemplatesDiffer()
    ensures Keys[13].name == "merge.<driver>" && Keys[15].name == "merge.<tool>"
    ensures Keys[13].keys != Keys[15].keys
  {
    assert Keys[13].keys[0][0] == 'd' && Keys[15].keys[0][0] == 'c';
  }

  /** A named branch gets the keys of `branch.<name>`, not those of `branch`:
      "branch." is not a prefix of "branch". */
  lemma BranchSubsectionKeys(section: string)
    requires section == "branch.main"
    ensures Keys[5].name == "branch.<name>" && Keys[4].name == "branch"
    ensures KnownKeys(Keys, section) == Keys[5].keys
    ensures KnownKeys(Keys, section) != Keys[4].keys
  {
    BranchMainUnknown(section);
    BranchMainPrefix(section);
    BranchTemplateFirst(TemplatePrefix(section));
    KnownKeysFallback(Keys, section, 5);
    BranchEntriesDiffer();
  }

  lemma BranchMainUnknown(section: string)
    requires section == "branch.main"
    ensures IndexOf(Keys, section) == None
  {
    assert forall j :: 0 <= j < |Keys| ==> Keys[j].name != "branch.main";
  }

  lemma BranchMainPrefix(section: string)
    requires section == "branch.main"
    ensures '.' in section && TemplatePrefix(section) == "branch."
  {
    assert section == "branch" + "." + "main" by {
      assert forall k :: 0 <= k < 11 ==> section[k] == ("branch" + "." + "main")[k];
    }
    TemplatePrefixOf("branch", "main");
    assert forall k :: 0 <= k < 7 ==> ("branch" + ".")[k] == "branch."[k];
  }

  lemma BranchTemplateFirst(prefix: string)
    requires prefix == "branch."
    ensures FirstWithPrefix(Keys, prefix) == Some(5)
  {
    BranchNamesBefore(prefix);
    FirstWithPrefixAt(Keys, prefix, 5);
  }

  lemma BranchNamesBefore(prefix: string)
    requires prefix == "branch."
    ensures 5 < |Keys| && prefix <= Keys[5].name
    ensures forall j :: 0 <= j < 5 ==> !(prefix <= Keys[j].name)
  {
    assert prefix <= Keys[5].name;
    assert forall j :: 0 <= j < 4 ==> Keys[j].name != [] && Keys[j].name[0] != 'b';
    assert |Keys[4].name| < |prefix|;
  }

  lemma BranchEntriesDiffer()
    ensures Keys[5].name == "branch.<name>" && Keys[4].name == "branch"
    ensures Keys[5].keys != Keys[4].keys
  {
    assert |Keys[5].keys| == 6 && |Keys[4].keys| == 2;
  }

  /** A named remote gets the keys of `remote.<name>`: neither `remote`
      (shorter than "remote.") nor `remotes` starts with "remote.". */
  lemma RemoteSubsectionKeys(section: string)
    requires section == "remote.origin"
    ensures Keys[20].name == "remote.<name>" && Keys[19].name == "remote" && Keys[21].name == "remotes"
    ensures KnownKeys(Keys, section) == Keys[20].keys
    ensures KnownKeys(Keys, section) != Keys[19].keys
  {
    RemoteOriginUnknown(section);
    RemoteOriginPrefix(section);
    RemoteTemplateFirst(TemplatePrefix(section));
    KnownKeysFallback(Keys, section, 20);
    RemoteEntriesDiffer();
  }

  lemma RemoteEntriesDiffer()
    ensures Keys[20].name == "remote.<name>" && Keys[19].name == "remote" && Keys[21].name == "remotes"
    ensures Keys[20].keys != Keys[19].keys
  {
    assert |Keys[20].keys| == 14 && |Keys[19].keys| == 1;
  }

  lemma RemoteOriginUnknown(section: string)
    requires section == "remote.origin"
    ensures IndexOf(Keys, section) == None
  {
    assert forall j :: 0 <= j < |Keys| ==> Keys[j].name != "remote.origin";
  }

  lemma RemoteOriginPrefix(section: string)
    requires section == "remote.origin"
    ensures '.' in section && TemplatePrefix(section) == "remote."
  {
    assert section == "remote" + "." + "origin" by {
      assert forall k :: 0 <= k < 13 ==> section[k] == ("remote" + "." + "origin")[k];
    }
    TemplatePrefixOf("remote", "origin");
    assert forall k :: 0 <= k < 7 ==> ("remote" + ".")[k] == "remote."[k];
  }

  lemma RemoteTemplateFirst(prefix: string)
    requires prefix == "remote."
    ensures FirstWithPrefix(Keys, prefix) == Some(20)
  {
    RemoteNamesBefore(prefix);
    FirstWithPrefixAt(Keys, prefix, 20);
  }

  lemma RemoteNamesBefore(prefix: string)
    requires prefix == "remote."
    ensures 20 < |Keys| && prefix <= Keys[20].name
    ensures forall j :: 0 <= j < 20 ==> !(prefix <= Keys[j].name)
  {
    assert prefix <= Keys[20].name;
    assert forall j :: 0 <= j < 19 ==> Keys[j].name != [] && Keys[j].name[0] != 'r';
    assert |Keys[19].name| < |prefix|;
  }

  /** `alias` is in the table with no keys, so nothing is offered, the same
      as for a section the table does not know. */
  lemma AliasHasNoKeys(section: string)
    requires section == "alias"
    ensures Keys[1].name == section && Keys[1].keys == []
    ensures KnownKeys(Keys, section) == []
  {
    assert Keys[0].name != section;
    assert IndexFrom(Keys, section, 1) == Some(1);
    assert IndexOf(Keys, section) == Some(1);
    assert '.' !in section;
  }
}

=== FILE: paths.dfy ===
/** Filesystem paths as the resolver sees them. A path is the sequence of its
    components below the root, so `[]` is "/" and `["repo", ".git"]` is
    "/repo/.git". Texts are turned into paths the way POSIX `realpath` does
    for paths without symbolic links: relative texts hang below the working
    directory, empty and "." components vanish and ".." removes the last
    component (the root being its own parent). */
module Paths {
  import opened Text

  type Path = seq<string>

  /** A component a canonical path can hold. */
  predicate IsComponent(c: string) {
    c != "" && c != "." && c != ".." && '/' !in c
  }

  predicate Canonical(p: Path) {
    forall i :: 0 <= i < |p| ==> IsComponent(p[i])
  }

  /** An absolute path with symbolic links, ".", ".." and empty components
      resolved: what `realpath` returns. */
  type CanonicalPath = p: Path | Canonical(p) witness []

  /** The components of a text, at every '/' (Python's `s.split("/")`). */
  function SplitText(s: string): (parts: seq<string>)
    ensures |parts| >= 1
    ensures forall i :: 0 <= i < |parts| ==> '/' !in parts[i]
  {
    if '/' in s then
      var k := FirstIndex(s, '/');
      [s[..k]] + SplitText(s[k + 1..])
    else [s]
  }

  /** Walks `parts` from `base`, as path normalisation does. */
  function Resolve(base: CanonicalPath, parts: seq<string>): (p: CanonicalPath)
    requires forall i :: 0 <= i < |parts| ==> '/' !in parts[i]
    decreases |parts|
  {
    if parts == [] then base
    else
      var c := parts[0];
      var next: CanonicalPath :=
        if c == "" || c == "." then base
        else if c == ".." then (if base == [] then [] else base[..|base| - 1])
        else base + [c];
      Resolve(next, parts[1..])
  }

  /** The plugin's `realpath`: `None` for an empty text, otherwise the text
      made absolute against `cwd` and normalised. */
  function Realpath(cwd: CanonicalPath, s: string): (r: Option<CanonicalPath>)
    ensures r == None <==> s == ""
  {
    if s == "" then None
    else if s[0] == '/' then Some(Resolve([], SplitText(s)))
    else Some(Resolve(cwd, SplitText(s)))
  }

  /** "/a/b" for `["a", "b"]`, the empty text for the root. */
  function JoinComponents(p: Path): string {
    if p == [] then "" else "/" + p[0] + JoinComponents(p[1..])
  }

  /** The text of a path, as `os.path.join` builds it: "/" for the root. */
  function Format(p: Path): (s: string)
    ensures s != [] && s[0] == '/'
  {
    if p == [] then "/" else JoinComponents(p)
  }

  /** `os.path.split` on a canonical path: the parent and the last component;
      the root splits into itself and an empty name. */
  function SplitLast(p: CanonicalPath): (r: (CanonicalPath, string))
    ensures p == [] ==> r == ([], "")
    ensures p != [] ==> r.0 + [r.1] == p && IsComponent(r.1)
  {
    if p == [] then ([], "") else (p[..|p| - 1], p[|p| - 1])
  }

  lemma SplitTextAt(c: string, rest: string)
    requires '/' !in c
    ensures SplitText(c + "/" + rest) == [c] + SplitText(rest)
  {
    var s := c + "/" + rest;
    assert s[|c|] == '/';
    var k := FirstIndex(s, '/');
    assert k == |c|;
    assert s[..k] == c;
    assert s[k + 1..] == rest;
  }

  lemma {:induction false} SplitJoined(p: Path)
    requires p != [] && Canonical(p)
    ensures SplitText(p[0] + JoinComponents(p[1..])) == p
    decreases |p|
  {
    if |p| == 1 {
      assert JoinComponents(p[1..]) == "";
      assert p[0] + "" == p[0];
    } else {
      var q := p[1..];
      assert JoinComponents(q) == "/" + q[0] + JoinComponents(q[1..]);
      assert p[0] + JoinComponents(q) == p[0] + "/" + (q[0] + JoinComponents(q[1..]));
      SplitTextAt(p[0], q[0] + JoinComponents(q[1..]));
      SplitJoined(q);
      assert p == [p[0]] + q;
    }
  }

  lemma {:induction false} ResolveCanonical(base: CanonicalPath, p: CanonicalPath)
    ensures Resolve(base, p) == base + p
    decreases |p|
  {
    if p != [] {
      ResolveCanonical(base + [p[0]], p[1..]);
      assert base + [p[0]] + p[1..] == base + p;
    }
  }

  lemma SplitFormat(p: CanonicalPath)
    requires p != []
    ensures SplitText(Format(p)) == [""] + p
  {
    var rest := p[0] + JoinComponents(p[1..]);
    assert Format(p) == "" + "/" + rest;
    SplitTextAt("", rest);
    SplitJoined(p);
  }

  lemma ResolveSkipsEmpty(base: CanonicalPath, p: CanonicalPath)
    ensures Resolve(base, [""] + p) == Resolve(base, p)
  {
    assert ([""] + p)[0] == "";
    assert ([""] + p)[1..] == p;
  }

  /** Formatting a canonical path and resolving the text gives the path back:
      the resolver may pass its own results through `realpath` again. */
  lemma {:induction false} RealpathOfFormat(cwd: CanonicalPath, p: CanonicalPath)
    ensures Realpath(cwd, Format(p)) == Some(p)
  {
    if p == [] {
      assert Format(p) == "" + "/" + "";
      SplitTextAt("", "");
      assert SplitText("") == [""];
      assert SplitText(Format(p)) == ["", ""];
      assert ["", ""][1..] == [""];
      assert Resolve([], ["", ""]) == Resolve([], [""]);
      assert [""][1..] == [];
      assert Resolve([], [""]) == Resolve([], []);
    } else {
      SplitFormat(p);
      ResolveSkipsEmpty([], p);
      ResolveCanonical([], p);
      assert [] + p == p;
      assert Realpath(cwd, Format(p)) == Some(Resolve([], [""] + p));
    }
  }

  /** ".." followed by the text of a path: the components are ".." and the
      path's. */
  lemma SplitUp(p: CanonicalPath)
    requires p != []
    ensures SplitText(".." + Format(p)) == [".."] + p
  {
    var rest := p[0] + JoinComponents(p[1..]);
    assert ".." + Format(p) == ".." + "/" + rest;
    SplitTextAt("..", rest);
    SplitJoined(p);
  }

  /** ".." leaves the last component of a path that has one. */
  lemma ResolveUp(base: CanonicalPath, up: string, rest: CanonicalPath)
    requires IsComponent(up)
    ensures Resolve(base + [up], [".."] + rest) == Resolve(base, rest)
  {
    assert ([".."] + rest)[1..] == rest;
    assert (base + [up])[..|base|] == base;
  }

  /** ".." at the root stays at the root. */
  lemma ResolveRootUp(rest: CanonicalPath)
    ensures Resolve([], [".."] + rest) == Resolve([], rest)
  {
    assert ([".."] + rest)[1..] == rest;
  }

  /** Resolving ".." and then a canonical path from `base` leads below the
      parent of `base`. */
  lemma ResolveUpFrom(base: CanonicalPath, below: CanonicalPath)
    ensures Resolve(base, [".."] + below) == SplitLast(base).0 + below
  {
    var parent := SplitLast(base).0;
    if base == [] {
      ResolveRootUp(below);
    } else {
      ResolveUp(parent, SplitLast(base).1, below);
    }
    ResolveCanonical(parent, below);
  }

  /** The text ".." followed by the text of a path is relative: `realpath`
      puts the path below the parent of the base it resolves against. */
  lemma RealpathUp(base: CanonicalPath, below: CanonicalPath)
    requires below != []
    ensures Realpath(base, ".." + Format(below)) == Some(SplitLast(base).0 + below)
  {
    SplitUp(below);
    ResolveUpFrom(base, below);
  }
}

=== FILE: rebase.dfy ===
/** The interactive-rebase helper: every selected line of a rebase todo list
    gets its first word replaced by one of git's rebase commands.

    A document is its sequence of lines (without their line breaks) and a
    selection is the index of the line its start lies on. Where the editor's
    word ends is not this plugin's business: it is a parameter, `wordEnd`,
    giving the end of the word that starts at a position of a line. */
module Rebase {

  /** The seven commands the helper accepts, each a non-empty run of
      lower-case letters. */
  function IsCommand(cmd: string): (b: bool)
    ensures b ==> cmd != [] && forall i :: 0 <= i < |cmd| ==> 'a' <= cmd[i] <= 'z'
  {
    cmd in ["drop", "edit", "exec", "fixup", "pick", "reword", "squash"]
  }

  /** The characters skipped before the first word: space and tab only. */
  predicate IsBlank(c: char) {
    c == ' ' || c == '\t'
  }

  /** Where the first word of `line` starts: after the leading blanks. */
  function BlankPrefix(line: string): (n: nat)
    ensures n <= |line|
    ensures forall i :: 0 <= i < n ==> IsBlank(line[i])
    ensures n == |line| || !IsBlank(line[n])
  {
    BlankRun(line, 0)
  }

  /** Where the blanks that start at position `k` of `line` end. */
  function BlankRun(line: string, k: nat): (n: nat)
    requires k <= |line|
    ensures k <= n <= |line|
    ensures forall i :: k <= i < n ==> IsBlank(line[i])
    ensures n == |line| || !IsBlank(line[n])
    decreases |line| - k
  {
    if k < |line| && IsBlank(line[k]) then BlankRun(line, k + 1) else k
  }

  /** A word boundary an editor may use: the word starting at `p` ends at or
      after `p` and within the line. */
  ghost predicate ValidWordEnd(wordEnd: (string, nat) -> nat) {
    forall line: string, p: nat :: p <= |line| ==> p <= wordEnd(line, p) <= |line|
  }

  /** The first word of `line`, as the editor delimits it. */
  function FirstWord(line: string, wordEnd: (string, nat) -> nat): (w: string)
    requires ValidWordEnd(wordEnd)
    ensures w <= line[BlankPrefix(line)..]
  {
    var p := BlankPrefix(line);
    line[p..wordEnd(line, p)]
  }

  /** Replaces the first word of `line` by `cmd`, keeping the blanks before
      it and everything after it. */
  function RewriteLine(line: string, cmd: string, wordEnd: (string, nat) -> nat): (r: string)
    requires ValidWordEnd(wordEnd)
    ensures var p := BlankPrefix(line);
            var e := wordEnd(line, p);
            && |r| == |line| - (e - p) + |cmd|
            && r[..p] == line[..p]
            && r[p..p + |cmd|] == cmd
            && r[p + |cmd|..] == line[e..]
  {
    var p := BlankPrefix(line);
    line[..p] + cmd + line[wordEnd(line, p)..]
  }

  /** `cmd` is one word for the editor where it was written into `line`:
      its word boundary does not run past it. */
  predicate KeepsCommandWord(line: string, cmd: string, wordEnd: (string, nat) -> nat)
    requires ValidWordEnd(wordEnd)
  {
    var r := RewriteLine(line, cmd, wordEnd);
    wordEnd(r, BlankPrefix(line)) == BlankPrefix(line) + |cmd|
  }

  /** The rewritten line starts with the same blanks and then `cmd`, and
      when the editor takes `cmd` for a word, `cmd` is its first word. */
  lemma RewriteSetsFirstWord(line: string, cmd: string, wordEnd: (string, nat) -> nat)
    requires ValidWordEnd(wordEnd)
    requires IsCommand(cmd)
    ensures BlankPrefix(RewriteLine(line, cmd, wordEnd)) == BlankPrefix(line)
    ensures KeepsCommandWord(line, cmd, wordEnd) ==> FirstWord(RewriteLine(line, cmd, wordEnd), wordEnd) == cmd
  {
    var p := BlankPrefix(line);
    var r := RewriteLine(line, cmd, wordEnd);
    assert r[p] == cmd[0];
  }

  /** Rewriting again with the same command changes nothing, so two
      selections on one line leave it as one would. */
  lemma RewriteIdempotent(line: string, cmd: string, wordEnd: (string, nat) -> nat)
    requires ValidWordEnd(wordEnd)
    requires IsCommand(cmd)
    requires KeepsCommandWord(line, cmd, wordEnd)
    ensures RewriteLine(RewriteLine(line, cmd, wordEnd), cmd, wordEnd) == RewriteLine(line, cmd, wordEnd)
  {
    var p := BlankPrefix(line);
    var r := RewriteLine(line, cmd, wordEnd);
    RewriteSetsFirstWord(line, cmd, wordEnd);
    var rr := RewriteLine(r, cmd, wordEnd);
    assert rr == r[..p] + cmd + r[p + |cmd|..];
    assert r == r[..p] + r[p..p + |cmd|] + r[p + |cmd|..];
  }

  /** `line` rewritten `n` times over, once per selection that lies on it. */
  function RewriteTimes(line: string, n: nat, cmd: string, wordEnd: (string, nat) -> nat): (r: string)
    requires ValidWordEnd(wordEnd)
    ensures n == 0 ==> r == line
  {
    if n == 0 then line else RewriteLine(RewriteTimes(line, n - 1, cmd, wordEnd), cmd, wordEnd)
  }

  /** However many selections lie on a line, it ends up rewritten once. */
  lemma {:induction false} RewriteTimesOnce(line: string, n: nat, cmd: string, wordEnd: (string, nat) -> nat)
    requires ValidWordEnd(wordEnd)
    requires IsCommand(cmd)
    requires KeepsCommandWord(line, cmd, wordEnd)
    requires n > 0
    ensures RewriteTimes(line, n, cmd, wordEnd) == RewriteLine(line, cmd, wordEnd)
    decreases n
  {
    if n > 1 {
      RewriteTimesOnce(line, n - 1, cmd, wordEnd);
      RewriteIdempotent(line, cmd, wordEnd);
    }
  }

  datatype Outcome = InvalidCommand | Replaced

  /** How many selections lie on line `i`. */
  function Count(sels: seq<nat>, i: nat): (n: nat)
    ensures n <= |sels|
    ensures n == 0 <==> i !in sels
  {
    if sels == [] then 0
    else
      var init := sels[..|sels| - 1];
      assert sels == init + [sels[|sels| - 1]];
      Count(init, i) + (if sels[|sels| - 1] == i then 1 else 0)
  }

  /** The count is the multiplicity of the line in the selections. */
  lemma {:induction false} CountIsMultiplicity(sels: seq<nat>, i: nat)
    ensures Count(sels, i) == multiset(sels)[i]
    decreases |sels|
  {
    if sels != [] {
      var init := sels[..|sels| - 1];
      var last := sels[|sels| - 1];
      assert sels == init + [last];
      CountIsMultiplicity(init, i);
      assert multiset(sels) == multiset(init) + multiset{last};
    }
  }

  /** The document after the selections have been applied one after the
      other, the last one last. */
  function RewriteSelections(doc: seq<string>, sels: seq<nat>, cmd: string, wordEnd: (string, nat) -> nat): (r: seq<string>)
    requires ValidWordEnd(wordEnd)
    requires forall k :: 0 <= k < |sels| ==> sels[k] < |doc|
    ensures |r| == |doc|
  {
    if sels == [] then doc
    else
      var j := sels[|sels| - 1];
      var before := RewriteSelections(doc, sels[..|sels| - 1], cmd, wordEnd);
      before[j := RewriteLine(before[j], cmd, wordEnd)]
  }

  /** One line of the document as the selections leave it, followed
      selection by selection: each selection on line `i` rewrites it. */
  function SelectedLine(line: string, i: nat, sels: seq<nat>, cmd: string, wordEnd: (string, nat) -> nat): (r: string)
    requires ValidWordEnd(wordEnd)
    ensures i !in sels ==> r == line
  {
    if sels == [] then line
    else
      var before := SelectedLine(line, i, sels[..|sels| - 1], cmd, wordEnd);
      assert sels == sels[..|sels| - 1] + [sels[|sels| - 1]];
      if sels[|sels| - 1] == i then RewriteLine(before, cmd, wordEnd) else before
  }

  /** Applying the selections to the document does to each line what they
      do to it alone. */
  lemma {:induction false} RewriteSelectionsAt(doc: seq<string>, sels: seq<nat>, cmd: string,
                                               wordEnd: (string, nat) -> nat, i: nat)
    requires ValidWordEnd(wordEnd)
    requires forall k :: 0 <= k < |sels| ==> sels[k] < |doc|
    requires i < |doc|
    ensures RewriteSelections(doc, sels, cmd, wordEnd)[i] == SelectedLine(doc[i], i, sels, cmd, wordEnd)
    decreases |sels|
  {
    if sels != [] {
      RewriteSelectionsAt(doc, sels[..|sels| - 1], cmd, wordEnd, i);
    }
  }

  /** Followed selection by selection, a line is rewritten once per
      selection on it. */
  lemma {:induction false} SelectedLineTimes(line: string, i: nat, sels: seq<nat>, cmd: string,
                                             wordEnd: (string, nat) -> nat)
    requires ValidWordEnd(wordEnd)
    ensures SelectedLine(line, i, sels, cmd, wordEnd) == RewriteTimes(line, Count(sels, i), cmd, wordEnd)
    decreases |sels|
  {
    if sels != [] {
      var init := sels[..|sels| - 1];
      SelectedLineTimes(line, i, init, cmd, wordEnd);
      CountLast(sels, i);
      if sels[|sels| - 1] == i {
        TimesStep(line, Count(init, i), Count(sels, i), cmd, wordEnd);
      }
    }
  }

  /** The last selection adds one to the count of its own line only. */
  lemma CountLast(sels: seq<nat>, i: nat)
    requires sels != []
    ensures Count(sels, i) == Count(sels[..|sels| - 1], i) + if sels[|sels| - 1] == i then 1 else 0
  {
  }

  /** One more rewrite is one more application of `RewriteLine`. */
  lemma TimesStep(line: string, n: nat, m: nat, cmd: string, wordEnd: (string, nat) -> nat)
    requires ValidWordEnd(wordEnd)
    requires m == n + 1
    ensures RewriteTimes(line, m, cmd, wordEnd) == RewriteLine(RewriteTimes(line, n, cmd, wordEnd), cmd, wordEnd)
  {
  }

  /** Line by line, applying the selections one after the other rewrites
      each line once per selection that lies on it. */
  lemma {:induction false} RewriteSelectionsLine(doc: seq<string>, sels: seq<nat>, cmd: string,
                                                 wordEnd: (string, nat) -> nat, i: nat)
    requires ValidWordEnd(wordEnd)
    requires forall k :: 0 <= k < |sels| ==> sels[k] < |doc|
    requires i < |doc|
    ensures RewriteSelections(doc, sels, cmd, wordEnd)[i] == RewriteTimes(doc[i], Count(sels, i), cmd, wordEnd)
  {
    RewriteSelectionsAt(doc, sels, cmd, wordEnd, i);
    SelectedLineTimes(doc[i], i, sels, cmd, wordEnd);
  }

  /** The command: an invalid `cmd` is reported and nothing changes;
      otherwise every selection, in order, has the first word of its line
      replaced by `cmd`. */
  method Run(doc: seq<string>, sels: seq<nat>, cmd: string, wordEnd: (string, nat) -> nat)
    returns (outcome: Outcome, result: seq<string>)
    requires ValidWordEnd(wordEnd)
    requires forall k :: 0 <= k < |sels| ==> sels[k] < |doc|
    ensures outcome == InvalidCommand <==> !IsCommand(cmd)
    ensures outcome == InvalidCommand ==> result == doc
    ensures |result| == |doc|
    ensures outcome == Replaced ==>
      forall i :: 0 <= i < |doc| ==> result[i] == RewriteTimes(doc[i], Count(sels, i), cmd, wordEnd)
  {
    if !IsCommand(cmd) {
      return InvalidCommand, doc;
    }
    result := RewriteAll(doc, sels, cmd, wordEnd);
    forall i | 0 <= i < |doc|
      ensures result[i] == RewriteTimes(doc[i], Count(sels, i), cmd, wordEnd)
    {
      RewriteSelectionsLine(doc, sels, cmd, wordEnd, i);
    }
    return Replaced, result;
  }

  /** The loop over the selections, each rewriting the line it lies on. */
  method RewriteAll(doc: seq<string>, sels: seq<nat>, cmd: string, wordEnd: (string, nat) -> nat)
    returns (result: seq<string>)
    requires ValidWordEnd(wordEnd)
    requires forall k :: 0 <= k < |sels| ==> sels[k] < |doc|
    ensures result == RewriteSelections(doc, sels, cmd, wordEnd)
  {
    result := doc;
    var k := 0;
    while k < |sels|
      invariant 0 <= k <= |sels|
      invariant result == RewriteSelections(doc, sels[..k], cmd, wordEnd)
    {
      var j := sels[k];
      assert sels[..k + 1][..k] == sels[..k];
      result := result[j := RewriteLine(result[j], cmd, wordEnd)];
      k := k + 1;
    }
    assert sels[..k] == sels;
  }

  /** What the command leaves in the document, line by line (`Run` leaves
      `RewriteTimes(doc[i], Count(sels, i), cmd, wordEnd)` on line `i`): a
      line no selection lies on is unchanged, and a selected line on which the
      editor takes `cmd` for a word ends up rewritten exactly once. */
  lemma RunLines(doc: seq<string>, sels: seq<nat>, cmd: string, wordEnd: (string, nat) -> nat, i: nat)
    requires ValidWordEnd(wordEnd)
    requires IsCommand(cmd)
    requires i < |doc|
    ensures var line := RewriteTimes(doc[i], Count(sels, i), cmd, wordEnd);
      && (i !in sels ==> line == doc[i])
      && (i in sels && KeepsCommandWord(doc[i], cmd, wordEnd) ==>
            line == RewriteLine(doc[i], cmd, wordEnd) && FirstWord(line, wordEnd) == cmd)
  {
    if i in sels && KeepsCommandWord(doc[i], cmd, wordEnd) {
      RewriteTimesOnce(doc[i], Count(sels, i), cmd, wordEnd);
      RewriteSetsFirstWord(doc[i], cmd, wordEnd);
    }
  }
}

=== FILE: text.dfy ===
/** The few Python `str` operations the plugin relies on, written over
    `string` (a `seq<char>`), each with the property its callers need. */
module Text {

  /** Python's `None` next to a present value. */
  datatype Option<+T> = None | Some(value: T)

  /** Position of the first `c` in `s`: Python's `s.find(c)` when `c in s`. */
  function FirstIndex(s: string, c: char): (i: nat)
    requires c in s
    ensures i < |s| && s[i] == c
    ensures c !in s[..i]
  {
    if s[0] == c then 0
    else
      var k := FirstIndex(s[1..], c);
      assert s[..k + 1] == [s[0]] + s[1..][..k];
      k + 1
  }

  /** Drops the leading characters that are in `drop`. */
  function StripLeft(s: string, drop: set<char>): (r: string)
    ensures |r| <= |s| && r == s[|s| - |r|..]
    ensures forall i :: 0 <= i < |s| - |r| ==> s[i] in drop
    ensures r == [] || r[0] !in drop
  {
    s[DroppedUntil(s, drop, 0)..]
  }

  /** Where the run of dropped characters that starts at `k` ends. */
  function DroppedUntil(s: string, drop: set<char>, k: nat): (n: nat)
    requires k <= |s|
    ensures k <= n <= |s|
    ensures forall i :: k <= i < n ==> s[i] in drop
    ensures n == |s| || s[n] !in drop
    decreases |s| - k
  {
    if k < |s| && s[k] in drop then DroppedUntil(s, drop, k + 1) else k
  }

  /** Drops the trailing characters that are in `drop`. */
  function StripRight(s: string, drop: set<char>): (r: string)
    ensures |r| <= |s| && r == s[..|r|]
    ensures forall i :: |r| <= i < |s| ==> s[i] in drop
    ensures r == [] || r[|r| - 1] !in drop
  {
    s[..DroppedSince(s, drop, |s|)]
  }

  /** Where the run of dropped characters that ends at `k` starts. */
  function DroppedSince(s: string, drop: set<char>, k: nat): (n: nat)
    requires k <= |s|
    ensures n <= k
    ensures forall i :: n <= i < k ==> s[i] in drop
    ensures n == 0 || s[n - 1] !in drop
    decreases k
  {
    if k > 0 && s[k - 1] in drop then DroppedSince(s, drop, k - 1) else k
  }

  /** Left stripping stops at the first kept character, wherever that is. */
  lemma StripLeftAt(s: string, drop: set<char>, k: nat)
    requires k <= |s|
    requires forall i :: 0 <= i < k ==> s[i] in drop
    requires k == |s| || s[k] !in drop
    ensures StripLeft(s, drop) == s[k..]
  {
    var r := StripLeft(s, drop);
    assert r != [] ==> r[0] == s[|s| - |r|];
  }

  /** Right stripping stops after the last kept character, wherever that is. */
  lemma StripRightAt(s: string, drop: set<char>, k: nat)
    requires k <= |s|
    requires forall i :: k <= i < |s| ==> s[i] in drop
    requires k == 0 || s[k - 1] !in drop
    ensures StripRight(s, drop) == s[..k]
  {
    var r := StripRight(s, drop);
    assert r != [] ==> r[|r| - 1] == s[|r| - 1];
  }

  /** Python's `s.strip(chars)`: the longest infix of `s` that neither starts
      nor ends with a dropped character, everything around it being dropped.
      It starts where the leading dropped characters end. */
  function Strip(s: string, drop: set<char>): (r: string)
    ensures StrippedAt(s, r, |s| - |StripLeft(s, drop)|, drop)
    ensures r == [] || (r[0] !in drop && r[|r| - 1] !in drop)
  {
    StripInfix(s, drop);
    StripRight(StripLeft(s, drop), drop)
  }

  /** Stripping the right of what stripping the left leaves is the infix at
      the offset where the left stripping stopped, and it starts with a kept
      character. */
  lemma {:induction false} StripInfix(s: string, drop: set<char>)
    ensures var left := StripLeft(s, drop);
      StrippedAt(s, StripRight(left, drop), |s| - |left|, drop)
    ensures var r := StripRight(StripLeft(s, drop), drop);
      r == [] || r[0] !in drop
  {
    var left := StripLeft(s, drop);
    var r := StripRight(left, drop);
    InfixOfSuffix(s, left, r, drop);
    assert r != [] ==> r[0] == left[0];
  }

  /** The parts of `StrippedAt` for a prefix `r` of a suffix `left` of `s`,
      given what each stripping dropped. */
  lemma {:induction false} InfixOfSuffix(s: string, left: string, r: string, drop: set<char>)
    requires |left| <= |s| && left == s[|s| - |left|..]
    requires |r| <= |left| && r == left[..|r|]
    requires forall j :: 0 <= j < |s| - |left| ==> s[j] in drop
    requires forall k :: |r| <= k < |left| ==> left[k] in drop
    ensures StrippedAt(s, r, |s| - |left|, drop)
  {
    var i := |s| - |left|;
    assert r == s[i..i + |r|];
    forall j | i + |r| <= j < |s| ensures s[j] in drop {
      assert s[j] == left[j - i];
    }
  }

  /** `r` is the infix of `s` at offset `i`, and everything around it is dropped. */
  predicate StrippedAt(s: string, r: string, i: int, drop: set<char>) {
    && 0 <= i <= |s| - |r|
    && r == s[i..i + |r|]
    && (forall j :: 0 <= j < i ==> s[j] in drop)
    && (forall j :: i + |r| <= j < |s| ==> s[j] in drop)
  }

  /** Dropped characters in front change nothing to what left stripping
      keeps. */
  lemma StripLeftDropped(d: string, t: string, drop: set<char>)
    requires forall i :: 0 <= i < |d| ==> d[i] in drop
    ensures StripLeft(d + t, drop) == StripLeft(t, drop)
  {
    var m := |t| - |StripLeft(t, drop)|;
    forall i | 0 <= i < |d| + m ensures (d + t)[i] in drop {
      if i >= |d| {
        assert (d + t)[i] == t[i - |d|];
      }
    }
    assert m < |t| ==> (d + t)[|d| + m] == StripLeft(t, drop)[0];
    StripLeftAt(d + t, drop, |d| + m);
    assert (d + t)[|d| + m..] == t[m..];
  }

  /** Dropped characters behind change nothing to what right stripping
      keeps. */
  lemma StripRightDropped(t: string, d: string, drop: set<char>)
    requires forall i :: 0 <= i < |d| ==> d[i] in drop
    ensures StripRight(t + d, drop) == StripRight(t, drop)
  {
    var r := StripRight(t, drop);
    var m := |r|;
    forall i | m <= i < |t + d| ensures (t + d)[i] in drop {
      if i >= |t| {
        assert (t + d)[i] == d[i - |t|];
      }
    }
    assert m > 0 ==> (t + d)[m - 1] == r[m - 1];
    StripRightAt(t + d, drop, m);
    assert (t + d)[..m] == t[..m];
  }

  /** A text that neither starts nor ends with a dropped character is what
      stripping leaves of it followed by dropped characters only. */
  lemma {:induction false} StripTrailing(t: string, d: string, drop: set<char>)
    requires t != [] && t[0] !in drop && t[|t| - 1] !in drop
    requires forall i :: 0 <= i < |d| ==> d[i] in drop
    ensures Strip(t + d, drop) == t
  {
    var s := t + d;
    assert s[0] == t[0];
    assert StripLeft(s, drop) == s;
    StripRightDropped(t, d, drop);
    assert StripRight(t, drop) == t;
  }

  /** The characters Python's `str.isspace` accepts, which `strip()` without
      an argument removes: the ASCII blanks and line breaks, the information
      separators 0x1C-0x1F and the Unicode space characters. */
  const Whitespace: set<char> := {
    ' ', '\t', '\n', '\r', '\U{B}', '\U{C}', '\U{1C}', '\U{1D}', '\U{1E}', '\U{1F}',
    '\U{85}', '\U{A0}', '\U{1680}',
    '\U{2000}', '\U{2001}', '\U{2002}', '\U{2003}', '\U{2004}', '\U{2005}',
    '\U{2006}', '\U{2007}', '\U{2008}', '\U{2009}', '\U{200A}',
    '\U{2028}', '\U{2029}', '\U{202F}', '\U{205F}', '\U{3000}'
  }

  /** Python's `s.replace(a + b, [c])` for a two-character pattern: matches are
      taken left to right and do not overlap. */
  function ReplacePair(s: string, a: char, b: char, c: char): (r: string)
    ensures |r| <= |s|
    ensures s == [] <==> r == []
    ensures s != [] ==> r[0] == (if |s| >= 2 && s[0] == a && s[1] == b then c else s[0])
  {
    if |s| < 2 then s
    else if s[0] == a && s[1] == b then [c] + ReplacePair(s[2..], a, b, c)
    else [s[0]] + ReplacePair(s[1..], a, b, c)
  }

  /** Some `a` in `s` is directly followed by `b`. */
  predicate HasPair(s: string, a: char, b: char) {
    exists i :: 0 <= i < |s| - 1 && s[i] == a && s[i + 1] == b
  }

  /** Once replaced, the pattern is gone: no `a` is directly followed by `b`,
      as long as the replacement character is neither of the two. */
  lemma {:induction false} ReplacePairLeavesNoPattern(s: string, a: char, b: char, c: char)
    requires c != a && c != b
    ensures !HasPair(ReplacePair(s, a, b, c), a, b)
    decreases |s|
  {
    var r := ReplacePair(s, a, b, c);
    if |s| < 2 {
    } else if s[0] == a && s[1] == b {
      ReplacePairLeavesNoPattern(s[2..], a, b, c);
      assert r == [c] + ReplacePair(s[2..], a, b, c);
    } else {
      var rest := ReplacePair(s[1..], a, b, c);
      ReplacePairLeavesNoPattern(s[1..], a, b, c);
      assert r == [s[0]] + rest;
      forall i | 0 <= i < |r| - 1 ensures !(r[i] == a && r[i + 1] == b) {
        if i == 0 {
          assert r[0] == s[0] && r[1] == rest[0];
          assert s[1..][0] == s[1];
          assert |s[1..]| >= 2 ==> s[1..][1] == s[2];
          assert rest[0] == c || rest[0] == s[1];
        } else {
          assert r[i] == rest[i - 1] && r[i + 1] == rest[i];
        }
      }
    }
  }

  /** A prefix free of `a` passes through the replacement untouched. */
  lemma {:induction false} ReplacePairCopiesPrefix(x: string, y: string, a: char, b: char, c: char)
    requires a !in x
    ensures ReplacePair(x + y, a, b, c) == x + ReplacePair(y, a, b, c)
    decreases |x|
  {
    if x != [] {
      assert (x + y)[0] == x[0];
      assert (x + y)[1..] == x[1..] + y;
      ReplacePairCopiesPrefix(x[1..], y, a, b, c);
      assert x == [x[0]] + x[1..];
      if |x + y| >= 2 {
        assert ReplacePair(x + y, a, b, c) == [x[0]] + ReplacePair(x[1..] + y, a, b, c);
      }
    } else {
      assert x + y == y;
    }
  }

  /** The first `a` followed by `b` is replaced, and the replacement goes on
      after the pair. */
  lemma {:induction false} ReplacePairAtPattern(x: string, y: string, a: char, b: char, c: char)
    requires a !in x
    ensures ReplacePair(x + [a, b] + y, a, b, c) == x + [c] + ReplacePair(y, a, b, c)
  {
    assert x + [a, b] + y == x + ([a, b] + y);
    ReplacePairCopiesPrefix(x, [a, b] + y, a, b, c);
    ReplacePairHeadPattern(y, a, b, c);
  }

  lemma {:induction false} ReplacePairHeadPattern(y: string, a: char, b: char, c: char)
    ensures ReplacePair([a, b] + y, a, b, c) == [c] + ReplacePair(y, a, b, c)
  {
    assert ([a, b] + y)[2..] == y;
  }

  /** The first `a` not followed by `b` is kept, and the replacement goes on
      after it. */
  lemma {:induction false} ReplacePairAtLone(x: string, y: string, a: char, b: char, c: char)
    requires a !in x
    requires y == [] || y[0] != b
    ensures ReplacePair(x + [a] + y, a, b, c) == x + [a] + ReplacePair(y, a, b, c)
  {
    AppendAssoc(x, [a], y);
    ReplacePairCopiesPrefix(x, [a] + y, a, b, c);
    ReplacePairHeadLone(y, a, b, c);
    AppendAssoc(x, [a], ReplacePair(y, a, b, c));
  }

  lemma AppendAssoc(x: string, y: string, z: string)
    ensures x + y + z == x + (y + z)
  {
  }

  lemma {:induction false} ReplacePairHeadLone(y: string, a: char, b: char, c: char)
    requires y == [] || y[0] != b
    ensures ReplacePair([a] + y, a, b, c) == [a] + ReplacePair(y, a, b, c)
  {
    if y == [] {
      assert [a] + y == [a];
    } else {
      assert ([a] + y)[1..] == y;
    }
  }

  /** The replacement only ever writes the new character. */
  lemma {:induction false} ReplacePairKeeps(s: string, a: char, b: char, c: char)
    ensures forall x :: x in ReplacePair(s, a, b, c) ==> x == c || x in s
    decreases |s|
  {
    if |s| >= 2 {
      if s[0] == a && s[1] == b {
        ReplacePairKeeps(s[2..], a, b, c);
        assert forall x :: x in s[2..] ==> x in s;
      } else {
        ReplacePairKeeps(s[1..], a, b, c);
        assert forall x :: x in s[1..] ==> x in s;
      }
    }
  }

  /** Python's `s.replace([c], "")`: every `c` is deleted, nothing else. */
  function RemoveAll(s: string, c: char): (r: string)
    ensures c !in r
    ensures forall x :: x != c ==> (x in r <==> x in s)
    ensures c !in s ==> r == s
  {
    if s == [] then []
    else if s[0] == c then RemoveAll(s[1..], c)
    else
      var rest := RemoveAll(s[1..], c);
      assert forall x :: x in s <==> x == s[0] || x in s[1..];
      [s[0]] + rest
  }

  /** Deleting distributes over joining texts. */
  lemma {:induction false} RemoveAllAppend(x: string, y: string, c: char)
    ensures RemoveAll(x + y, c) == RemoveAll(x, c) + RemoveAll(y, c)
    decreases |x|
  {
    if x == [] {
      assert x + y == y;
    } else {
      var xy := x + y;
      assert xy[0] == x[0] && xy[1..] == x[1..] + y;
      RemoveAllAppend(x[1..], y, c);
      if x[0] != c {
        assert RemoveAll(xy, c) == [x[0]] + (RemoveAll(x[1..], c) + RemoveAll(y, c));
        assert RemoveAll(x, c) == [x[0]] + RemoveAll(x[1..], c);
      }
    }
  }

  /** On one character: deleted when it is `c`, kept otherwise. With
      `RemoveAllAppend` this fixes the result, order and multiplicity
      included. */
  lemma {:induction false} RemoveAllSingle(x: char, c: char)
    ensures RemoveAll([x], c) == if x == c then [] else [x]
  {
    assert [x][1..] == [];
  }
}

=== FILE: worktree.dfy ===
/** Local emulation of `git rev-parse`: finding the working tree that holds a
    file, its git directory (following the `gitdir: ` redirect file that
    linked worktrees, submodules and separate git directories leave), and
    the repository holding that git directory: its `.git` entry, taken as
    the common directory, and its working tree. The disk is an abstract
    `FileSystem` value. */
module Worktree {
  import opened Text
  import opened Paths

  /** What the resolver can observe: the paths that exist (files or
      directories), the contents of the regular files it can read, and the
      working directory of the process, against which relative texts resolve.
      A path missing from `files` cannot be opened for reading. */
  datatype FileSystem = FileSystem(entries: set<Path>, files: map<Path, string>, cwd: CanonicalPath)

  /** The marker of a working tree: a directory, or a redirect file. */
  const GitEntry: string := ".git"

  /** The exact prefix of a redirect file's contents. */
  const GitdirPrefix: string := "gitdir: "

  /** The `.git` entry of `p`. */
  function GitPath(p: Path): (g: Path)
    ensures |g| == |p| + 1 && g[..|p|] == p && g[|p|] == GitEntry
    ensures Canonical(p) ==> Canonical(g)
  {
    p + [GitEntry]
  }

  /** `p` holds a `.git` entry, file or directory. */
  predicate IsWorkTree(fs: FileSystem, p: Path) {
    GitPath(p) in fs.entries
  }

  /** A working tree is a path with an existing child called `.git`. The
      text of a path is never empty (the root is "/"), so the guard of
      `is_work_tree` against an empty path never fails. */
  lemma IsWorkTreeChild(fs: FileSystem, p: Path)
    ensures IsWorkTree(fs, p) <==>
      exists e :: e in fs.entries && e != [] && e[..|e| - 1] == p && e[|e| - 1] == GitEntry
  {
    GitChild(p);
  }

  /** `GitPath(p)` is the one path whose parent is `p` and whose last
      component is `.git`. */
  lemma GitChild(p: Path)
    ensures forall e: Path :: e != [] && e[..|e| - 1] == p && e[|e| - 1] == GitEntry <==> e == GitPath(p)
  {
    forall e: Path | e != [] && e[..|e| - 1] == p && e[|e| - 1] == GitEntry
      ensures e == GitPath(p)
    {
      assert e == e[..|e| - 1] + [e[|e| - 1]];
    }
  }

  /** `parse_gitfile` as written: only a readable file whose contents start
      with exactly `gitdir: ` names a target, and then the rest of the
      contents, stripped of surrounding whitespace, goes through `realpath`
      (so a blank remainder names nothing). `realpath` makes a relative text
      absolute against the process's working directory. */
  function ParseGitfileAsWritten(fs: FileSystem, gitfile: Path): (target: Option<CanonicalPath>)
    ensures target.Some? <==> gitfile in fs.files && GitdirPrefix <= fs.files[gitfile]
                              && Strip(fs.files[gitfile][|GitdirPrefix|..], Whitespace) != ""
    ensures target.Some? ==>
      target == Realpath(fs.cwd, Strip(fs.files[gitfile][|GitdirPrefix|..], Whitespace))
  {
    if gitfile in fs.files && GitdirPrefix <= fs.files[gitfile] then
      Realpath(fs.cwd, Strip(fs.files[gitfile][|GitdirPrefix|..], Whitespace))
    else
      None
  }

  /** The target the redirect file `.git` of `worktree` names, read as git
      reads it: a relative text, such as the `../.git/modules/<name>` git
      writes for a submodule, hangs below `worktree`, the directory holding
      the file. Files naming no target and absolute targets are read as
      `parse_gitfile` reads them. */
  function ParseGitfile(fs: FileSystem, worktree: CanonicalPath): (target: Option<CanonicalPath>)
    ensures target.None? <==> ParseGitfileAsWritten(fs, GitPath(worktree)).None?
    ensures target.Some? ==>
      target == Realpath(worktree, Strip(fs.files[GitPath(worktree)][|GitdirPrefix|..], Whitespace))
  {
    var gitfile := GitPath(worktree);
    if gitfile in fs.files && GitdirPrefix <= fs.files[gitfile] then
      Realpath(worktree, Strip(fs.files[gitfile][|GitdirPrefix|..], Whitespace))
    else
      None
  }

  /** An absolute target is read as the plugin's `parse_gitfile` reads it; a relative one
      hangs below the working tree. */
  lemma ParseGitfileReads(fs: FileSystem, worktree: CanonicalPath)
    requires ParseGitfile(fs, worktree).Some?
    ensures var text := Strip(fs.files[GitPath(worktree)][|GitdirPrefix|..], Whitespace);
      && (text[0] == '/' ==> ParseGitfile(fs, worktree) == ParseGitfileAsWritten(fs, GitPath(worktree)))
      && (text[0] != '/' ==> ParseGitfile(fs, worktree) == Some(Resolve(worktree, SplitText(text))))
  {
  }

  /** Read as git reads it, a redirect names the same target whatever the
      process's working directory. */
  lemma ParseGitfileIgnoresCwd(fs: FileSystem, worktree: CanonicalPath, cwd: CanonicalPath)
    ensures ParseGitfile(fs.(cwd := cwd), worktree) == ParseGitfile(fs, worktree)
  {
  }

  /** The search loop of `rev_parse_toplevel`: test `path`, then split off
      its last component and go on, until splitting yields an empty name
      (the root has been looked at). */
  function Climb(fs: FileSystem, path: CanonicalPath, name: string): (r: Option<CanonicalPath>)
    ensures name == "" ==> r == None
    ensures r.Some? ==> IsWorkTree(fs, r.value) && r.value <= path
    ensures r.Some? ==> forall k :: |r.value| < k <= |path| ==> !IsWorkTree(fs, path[..k])
    ensures r.None? && name != "" ==> forall k :: 0 <= k <= |path| ==> !IsWorkTree(fs, path[..k])
    decreases |path|, name != ""
  {
    if name == "" then None
    else if IsWorkTree(fs, path) then
      assert path[..|path|] == path;
      Some(path)
    else
      var (parent, last) := SplitLast(path);
      var r := Climb(fs, parent, last);
      ClimbStep(fs, path, parent, last, r);
      r
  }

  /** A result of the search from the parent of `path`, which holds no `.git`
      entry itself, is one of the search from `path`. */
  lemma ClimbStep(fs: FileSystem, path: CanonicalPath, parent: CanonicalPath, last: string,
                  r: Option<CanonicalPath>)
    requires SplitLast(path) == (parent, last) && !IsWorkTree(fs, path)
    requires last == "" ==> r == None
    requires r.Some? ==> IsWorkTree(fs, r.value) && r.value <= parent
    requires r.Some? ==> forall k :: |r.value| < k <= |parent| ==> !IsWorkTree(fs, parent[..k])
    requires r.None? && last != "" ==> forall k :: 0 <= k <= |parent| ==> !IsWorkTree(fs, parent[..k])
    ensures r.Some? ==> r.value <= path
    ensures r.Some? ==> forall k :: |r.value| < k <= |path| ==> !IsWorkTree(fs, path[..k])
    ensures r.None? ==> forall k :: 0 <= k <= |path| ==> !IsWorkTree(fs, path[..k])
  {
    assert path[..|path|] == path;
    if path != [] {
      assert forall k :: 0 <= k <= |parent| ==> parent[..k] == path[..k];
    }
  }

  /** The nearest proper ancestor of `p` that holds a `.git` entry: the
      candidates are the parent of `p` first, then each ancestor up to the
      root, and `p` itself is never one. */
  function TopLevelOf(fs: FileSystem, p: CanonicalPath): (r: Option<CanonicalPath>)
    ensures r.Some? ==> r.value < p && IsWorkTree(fs, r.value)
    ensures r.Some? ==> forall k :: |r.value| < k < |p| ==> !IsWorkTree(fs, p[..k])
    ensures r.None? <==> forall k :: 0 <= k < |p| ==> !IsWorkTree(fs, p[..k])
  {
    var (parent, name) := SplitLast(p);
    var r := Climb(fs, parent, name);
    assert forall k :: 0 <= k <= |parent| ==> parent[..k] == p[..k];
    assert r.Some? ==> p[..|r.value|] == r.value;
    r
  }

  /** `rev_parse_toplevel`: nothing for an empty path (the editor's `None`
      for an unsaved view is the empty text here), otherwise the nearest
      proper ancestor of the canonical path that holds a `.git` entry. */
  function RevParseToplevel(fs: FileSystem, filePath: string): (r: Option<CanonicalPath>)
    ensures filePath == "" ==> r == None
    ensures r.Some? ==> IsWorkTree(fs, r.value)
    ensures filePath != "" ==> r == TopLevelOf(fs, Realpath(fs.cwd, filePath).value)
  {
    if filePath == "" then None
    else TopLevelOf(fs, Realpath(fs.cwd, filePath).value)
  }

  /** `rev_parse_gitdir`: the git directory of the working tree holding the
      file, which is the redirect target when `.git` is a valid redirect file
      and the `.git` entry itself otherwise. */
  function RevParseGitdir(fs: FileSystem, filePath: string): (r: Option<CanonicalPath>)
    ensures r.None? <==> RevParseToplevel(fs, filePath).None?
    ensures r.Some? ==>
      var worktree := RevParseToplevel(fs, filePath).value;
      r == (if ParseGitfile(fs, worktree).Some? then ParseGitfile(fs, worktree) else Some(GitPath(worktree)))
  {
    match RevParseToplevel(fs, filePath)
    case None => None
    case Some(worktree) =>
      var gitdir := GitPath(worktree);
      match ParseGitfile(fs, worktree)
      case Some(target) => Some(target)
      case None => Some(gitdir)
  }

  /** `rev_parse_commondir`: the `.git` entry of the working tree that holds
      the git directory, or the git directory itself when none holds it. */
  function RevParseCommondir(fs: FileSystem, filePath: string): (r: Option<CanonicalPath>)
    ensures r.None? <==> RevParseGitdir(fs, filePath).None?
  {
    match RevParseGitdir(fs, filePath)
    case None => None
    case Some(gitdir) =>
      match RevParseToplevel(fs, Format(gitdir))
      case Some(worktree) => Some(GitPath(worktree))
      case None => Some(gitdir)
  }

  /** The variables an opened file can refer to. */
  datatype Variables = Variables(
    commonDir: CanonicalPath,     // GIT_COMMON_DIR
    gitDir: CanonicalPath,        // GIT_DIR
    superWorkTree: CanonicalPath, // GIT_SUPER_WORK_TREE
    workTree: CanonicalPath       // GIT_WORK_TREE
  )

  /** What `init_variables` does as written: `NotInWorkTree` is its `None`,
      and `JoinError` is the `TypeError` raised by `git_path(None)` when a
      redirect target lies in no working tree. */
  datatype InitOutcome = NotInWorkTree | JoinError | Resolved(vars: Variables)

  /** `init_variables` as written, but for the redirect, which is read as git
      reads it (`ParseGitfile`): it fails exactly when the working tree's
      `.git` redirects to a target that lies in no working tree. */
  function InitVariablesAsWritten(fs: FileSystem, filePath: string): (r: InitOutcome)
    ensures r.NotInWorkTree? <==> RevParseToplevel(fs, filePath).None?
    ensures r.JoinError? <==>
      exists w, target :: RevParseToplevel(fs, filePath) == Some(w)
        && ParseGitfile(fs, w) == Some(target)
        && RevParseToplevel(fs, Format(target)).None?
    ensures r.Resolved? ==> Some(r.vars) == InitVariables(fs, filePath)
  {
    match RevParseToplevel(fs, filePath)
    case None => NotInWorkTree
    case Some(worktree) =>
      var gitdir := GitPath(worktree);
      match ParseGitfile(fs, worktree)
      case Some(target) =>
        (match RevParseToplevel(fs, Format(target))
         case None => JoinError
         case Some(superWorkTree) =>
           Resolved(Variables(GitPath(superWorkTree), target, superWorkTree, worktree)))
      case None =>
        Resolved(Variables(gitdir, gitdir, worktree, worktree))
  }

  /** `init_variables`, with a redirect target that lies in no working tree
      (a git directory kept apart from its working tree) handled the way
      `rev_parse_commondir` handles it: the git directory is its own common
      directory and the working tree is its own super working tree. */
  function InitVariables(fs: FileSystem, filePath: string): (r: Option<Variables>)
    ensures r.None? <==> RevParseToplevel(fs, filePath).None?
    ensures r.Some? ==> Some(r.value.workTree) == RevParseToplevel(fs, filePath)
    ensures r.Some? ==> Some(r.value.gitDir) == RevParseGitdir(fs, filePath)
    ensures r.Some? && ParseGitfile(fs, r.value.workTree).None? ==>
      && r.value.gitDir == GitPath(r.value.workTree)
      && r.value.commonDir == r.value.gitDir
      && r.value.superWorkTree == r.value.workTree
  {
    match RevParseToplevel(fs, filePath)
    case None => None
    case Some(worktree) =>
      var gitdir := GitPath(worktree);
      match ParseGitfile(fs, worktree)
      case Some(target) =>
        (match RevParseToplevel(fs, Format(target))
         case None => Some(Variables(target, target, worktree, worktree))
         case Some(superWorkTree) =>
           Some(Variables(GitPath(superWorkTree), target, superWorkTree, worktree)))
      case None =>
        Some(Variables(gitdir, gitdir, worktree, worktree))
  }

  /** Conversely, the nearest proper ancestor holding a `.git` entry is the
      one the search returns. */
  lemma NearestAncestorFound(fs: FileSystem, p: CanonicalPath, k: nat)
    requires k < |p| && IsWorkTree(fs, p[..k])
    requires forall j :: k < j < |p| ==> !IsWorkTree(fs, p[..j])
    ensures TopLevelOf(fs, p) == Some(p[..k])
  {
    var r := TopLevelOf(fs, p);
    assert r.Some?;
    assert r.value == p[..|r.value|];
  }

  /** A path none of whose proper ancestors holds a `.git` entry is in no
      working tree. */
  lemma NoAncestorFound(fs: FileSystem, p: CanonicalPath)
    requires forall j :: 0 <= j < |p| ==> !IsWorkTree(fs, p[..j])
    ensures TopLevelOf(fs, p) == None
  {
  }

  /** The working tree holding a `.git` entry is the first candidate for that
      entry itself, so searching from the entry finds it again. */
  lemma TopLevelOfGitPath(fs: FileSystem, w: CanonicalPath)
    requires IsWorkTree(fs, w)
    ensures TopLevelOf(fs, GitPath(w)) == Some(w)
  {
    var g := GitPath(w);
    assert g[..|w|] == w;
    var r := TopLevelOf(fs, g);
    assert r.Some?;
    assert |r.value| == |w|;
  }

  /** What git writes into the redirect file of a linked worktree or of a
      separate git directory, the prefix, the absolute target's text and a
      line break, reads back as that target. */
  lemma GitfileRoundTrip(fs: FileSystem, w: CanonicalPath, target: CanonicalPath, trailer: string)
    requires forall i :: 0 <= i < |trailer| ==> trailer[i] in Whitespace
    requires Format(target)[|Format(target)| - 1] !in Whitespace
    requires GitPath(w) in fs.files && fs.files[GitPath(w)] == GitdirPrefix + Format(target) + trailer
    ensures ParseGitfile(fs, w) == Some(target)
    ensures ParseGitfileAsWritten(fs, GitPath(w)) == Some(target)
  {
    var text := Format(target);
    SlashIsNotBlank();
    ReadsText(fs, w, text, trailer);
    RealpathOfFormat(w, target);
    RealpathOfFormat(fs.cwd, target);
  }

  /** What git writes into the redirect file of a submodule directly below
      its superproject, `gitdir: ..` followed by the text of the submodule's
      git directory relative to the superproject, reads back as that
      directory below the superproject, wherever the editor runs. As written,
      the plugin's `parse_gitfile` resolves the same text against the process's working
      directory instead. */
  lemma SubmoduleGitfileRoundTrip(fs: FileSystem, submodule: CanonicalPath, superWorkTree: CanonicalPath,
                                  name: string, below: CanonicalPath, trailer: string)
    requires below != [] && submodule == superWorkTree + [name]
    requires forall i :: 0 <= i < |trailer| ==> trailer[i] in Whitespace
    requires Format(below)[|Format(below)| - 1] !in Whitespace
    requires GitPath(submodule) in fs.files
    requires fs.files[GitPath(submodule)] == GitdirPrefix + ".." + Format(below) + trailer
    ensures ParseGitfile(fs, submodule) == Some(superWorkTree + below)
    ensures ParseGitfileAsWritten(fs, GitPath(submodule)) == Some(SplitLast(fs.cwd).0 + below)
  {
    var text := ".." + Format(below);
    assert text[|text| - 1] == Format(below)[|Format(below)| - 1];
    DotIsNotBlank();
    ReadsText(fs, submodule, text, trailer);
    RealpathUp(submodule, below);
    RealpathUp(fs.cwd, below);
  }

  /** Both readings of a redirect file that holds the prefix, a text and
      trailing whitespace resolve that text, each against its own base. */
  lemma ReadsText(fs: FileSystem, w: CanonicalPath, text: string, trailer: string)
    requires text != [] && text[0] !in Whitespace && text[|text| - 1] !in Whitespace
    requires forall i :: 0 <= i < |trailer| ==> trailer[i] in Whitespace
    requires GitPath(w) in fs.files && fs.files[GitPath(w)] == GitdirPrefix + text + trailer
    ensures ParseGitfile(fs, w) == Realpath(w, text)
    ensures ParseGitfileAsWritten(fs, GitPath(w)) == Realpath(fs.cwd, text)
  {
    RedirectText(fs.files[GitPath(w)], text, trailer);
  }

  /** The file git writes holds the prefix, the text and trailing whitespace;
      the text is what the parser reads. */
  lemma RedirectText(contents: string, text: string, trailer: string)
    requires text != [] && text[0] !in Whitespace && text[|text| - 1] !in Whitespace
    requires forall i :: 0 <= i < |trailer| ==> trailer[i] in Whitespace
    requires contents == GitdirPrefix + text + trailer
    ensures GitdirPrefix <= contents
    ensures Strip(contents[|GitdirPrefix|..], Whitespace) == text
  {
    assert contents == GitdirPrefix + (text + trailer);
    assert contents[|GitdirPrefix|..] == text + trailer;
    StripTrailing(text, trailer, Whitespace);
  }

  lemma DotIsNotBlank()
    ensures '.' !in Whitespace
  {
  }

  lemma SlashIsNotBlank()
    ensures '/' !in Whitespace
  {
  }

  /** The three outcomes of `init_variables`, one step at a time. */
  lemma InitVariablesPlain(fs: FileSystem, filePath: string, w: CanonicalPath)
    requires RevParseToplevel(fs, filePath) == Some(w)
    requires ParseGitfile(fs, w) == None
    ensures InitVariables(fs, filePath) == Some(Variables(GitPath(w), GitPath(w), w, w))
    ensures InitVariablesAsWritten(fs, filePath) == Resolved(Variables(GitPath(w), GitPath(w), w, w))
  {
  }

  lemma InitVariablesRedirected(fs: FileSystem, filePath: string, w: CanonicalPath,
                                target: CanonicalPath, superWorkTree: Option<CanonicalPath>)
    requires RevParseToplevel(fs, filePath) == Some(w)
    requires ParseGitfile(fs, w) == Some(target)
    requires RevParseToplevel(fs, Format(target)) == superWorkTree
    ensures superWorkTree.Some? ==>
      && InitVariables(fs, filePath) == Some(Variables(GitPath(superWorkTree.value), target, superWorkTree.value, w))
      && InitVariablesAsWritten(fs, filePath) == Resolved(Variables(GitPath(superWorkTree.value), target, superWorkTree.value, w))
    ensures superWorkTree.None? ==>
      && InitVariables(fs, filePath) == Some(Variables(target, target, w, w))
      && InitVariablesAsWritten(fs, filePath) == JoinError
  {
  }

  /** `rev_parse_commondir` and `init_variables` name the same common
      directory whenever the variables exist. */
  lemma CommondirAgreement(fs: FileSystem, filePath: string)
    requires InitVariables(fs, filePath).Some?
    ensures RevParseCommondir(fs, filePath) == Some(InitVariables(fs, filePath).value.commonDir)
  {
    var worktree := RevParseToplevel(fs, filePath).value;
    var gitdir := GitPath(worktree);
    match ParseGitfile(fs, worktree)
    case Some(target) =>
      RealpathOfFormat(fs.cwd, target);
    case None =>
      RealpathOfFormat(fs.cwd, gitdir);
      TopLevelOfGitPath(fs, worktree);
  }

  /** Where the plugin's `init_variables`, as written, returns at all, it agrees with
      `rev_parse_commondir` too. */
  lemma CommondirAgreementAsWritten(fs: FileSystem, filePath: string)
    requires InitVariablesAsWritten(fs, filePath).Resolved?
    ensures RevParseCommondir(fs, filePath) == Some(InitVariablesAsWritten(fs, filePath).vars.commonDir)
  {
    CommondirAgreement(fs, filePath);
  }
}

=== FILE: worktree_examples.dfy ===
/** The resolver on four concrete layouts: a plain repository, a linked
    worktree whose `.git` is a redirect file, a working tree whose git
    directory is kept apart (`git init --separate-git-dir`), and a submodule,
    whose redirect is relative. */
module WorktreeExamples {
  import opened Text
  import opened Paths
  import opened Worktree

  /** `/repo/.git` is a directory; a file below `/repo/sub` resolves to
      `/repo` with `/repo/.git` as git and common directory. */
  lemma PlainRepository(fs: FileSystem, file: CanonicalPath, filePath: string)
    requires fs == FileSystem({["repo", ".git"]}, map[], [])
    requires file == ["repo", "sub", "file.txt"] && filePath == Format(file)
    ensures InitVariables(fs, filePath)
      == Some(Variables(["repo", ".git"], ["repo", ".git"], ["repo"], ["repo"]))
  {
    assert file[..1] == ["repo"] && GitPath(["repo"]) == ["repo", ".git"];
    assert file[..2] == ["repo", "sub"] && GitPath(["repo", "sub"]) == ["repo", "sub", ".git"];
    ToplevelOfFile(fs, filePath, file, 1);
    assert ParseGitfile(fs, ["repo"]) == None;
    InitVariablesPlain(fs, filePath, ["repo"]);
    assert GitPath(["repo"]) == ["repo", ".git"];
  }

  /** The linked worktree layout: `/wt/.git` redirects to
      `/repo/.git/worktrees/wt`. */
  predicate IsLinkedLayout(fs: FileSystem, target: CanonicalPath) {
    && target == ["repo", ".git", "worktrees", "wt"]
    && fs == FileSystem({["repo", ".git"], ["wt", ".git"], target},
                        map[["wt", ".git"] := GitdirPrefix + Format(target) + "\n"], [])
  }

  /** In the linked worktree layout the git directory is the redirect's
      target, and the common directory and super working tree come from the
      repository that holds it. */
  lemma LinkedWorktree(fs: FileSystem, target: CanonicalPath, file: CanonicalPath, filePath: string)
    requires IsLinkedLayout(fs, target)
    requires file == ["wt", "file.txt"] && filePath == Format(file)
    ensures InitVariables(fs, filePath)
      == Some(Variables(["repo", ".git"], ["repo", ".git", "worktrees", "wt"], ["repo"], ["wt"]))
  {
    LinkedToplevel(fs, target, file, filePath);
    LinkedRedirect(fs, target);
    LinkedTargetToplevel(fs, target);
    LinkedVariables(fs, filePath, target);
  }

  /** The variables follow from the three lookups alone. */
  lemma LinkedVariables(fs: FileSystem, filePath: string, target: CanonicalPath)
    requires target == ["repo", ".git", "worktrees", "wt"]
    requires RevParseToplevel(fs, filePath) == Some(["wt"])
    requires ParseGitfile(fs, ["wt"]) == Some(target)
    requires RevParseToplevel(fs, Format(target)) == Some(["repo"])
    ensures InitVariables(fs, filePath)
      == Some(Variables(["repo", ".git"], ["repo", ".git", "worktrees", "wt"], ["repo"], ["wt"]))
  {
    InitVariablesRedirected(fs, filePath, ["wt"], target, Some(["repo"]));
    assert GitPath(["repo"]) == ["repo", ".git"];
  }

  lemma LinkedToplevel(fs: FileSystem, target: CanonicalPath, file: CanonicalPath, filePath: string)
    requires IsLinkedLayout(fs, target)
    requires file == ["wt", "file.txt"] && filePath == Format(file)
    ensures RevParseToplevel(fs, filePath) == Some(["wt"])
  {
    assert file[..1] == ["wt"] && GitPath(["wt"]) == ["wt", ".git"];
    ToplevelOfFile(fs, filePath, file, 1);
  }

  lemma LinkedRedirect(fs: FileSystem, target: CanonicalPath)
    requires IsLinkedLayout(fs, target)
    ensures ParseGitfile(fs, ["wt"]) == Some(target)
  {
    assert Format(target)[|Format(target)| - 1] !in Whitespace by {
      FormatFour("repo", ".git", "worktrees", "wt");
      EndsWith(Format(target), "/" + "repo" + "/" + ".git" + "/" + "worktrees" + "/", "wt");
      LetterIsNotBlank('t');
    }
    assert GitPath(["wt"]) == ["wt", ".git"];
    RedirectTo(fs, ["wt"], target);
  }

  lemma LinkedTargetToplevel(fs: FileSystem, target: CanonicalPath)
    requires IsLinkedLayout(fs, target)
    ensures RevParseToplevel(fs, Format(target)) == Some(["repo"])
  {
    assert target[..1] == ["repo"] && GitPath(["repo"]) == ["repo", ".git"];
    assert target[..2] == ["repo", ".git"] && GitPath(["repo", ".git"]) == ["repo", ".git", ".git"];
    assert target[..3] == ["repo", ".git", "worktrees"];
    assert GitPath(["repo", ".git", "worktrees"]) == ["repo", ".git", "worktrees", ".git"];
    ToplevelOfFile(fs, Format(target), target, 1);
  }

  /** The separate git directory layout: `/w/.git` redirects to
      `/srv/repo.git`, which no working tree holds. */
  predicate IsSeparateLayout(fs: FileSystem, target: CanonicalPath) {
    && target == ["srv", "repo.git"]
    && fs == FileSystem({["w", ".git"]}, map[["w", ".git"] := GitdirPrefix + Format(target) + "\n"], [])
  }

  /** In the separate git directory layout the plugin's `init_variables`
      fails on `git_path(None)`, while the corrected one falls back as
      `rev_parse_commondir` does. */
  lemma SeparateGitDir(fs: FileSystem, target: CanonicalPath, file: CanonicalPath, filePath: string)
    requires IsSeparateLayout(fs, target)
    requires file == ["w", "file"] && filePath == Format(file)
    ensures InitVariablesAsWritten(fs, filePath) == JoinError
    ensures InitVariables(fs, filePath) == Some(Variables(target, target, ["w"], ["w"]))
    ensures RevParseCommondir(fs, filePath) == Some(target)
  {
    SeparateToplevel(fs, target, file, filePath);
    SeparateRedirect(fs, target);
    SeparateTargetToplevel(fs, target);
    InitVariablesRedirected(fs, filePath, ["w"], target, None);
    CommondirAgreement(fs, filePath);
  }

  lemma SeparateToplevel(fs: FileSystem, target: CanonicalPath, file: CanonicalPath, filePath: string)
    requires IsSeparateLayout(fs, target)
    requires file == ["w", "file"] && filePath == Format(file)
    ensures RevParseToplevel(fs, filePath) == Some(["w"])
  {
    assert file[..1] == ["w"] && GitPath(["w"]) == ["w", ".git"];
    ToplevelOfFile(fs, filePath, file, 1);
  }

  lemma SeparateRedirect(fs: FileSystem, target: CanonicalPath)
    requires IsSeparateLayout(fs, target)
    ensures ParseGitfile(fs, ["w"]) == Some(target)
  {
    assert Format(target)[|Format(target)| - 1] !in Whitespace by {
      FormatTwo("srv", "repo.git");
      EndsWith(Format(target), "/" + "srv" + "/", "repo.git");
      LetterIsNotBlank('t');
    }
    assert GitPath(["w"]) == ["w", ".git"];
    RedirectTo(fs, ["w"], target);
  }

  lemma SeparateTargetToplevel(fs: FileSystem, target: CanonicalPath)
    requires IsSeparateLayout(fs, target)
    ensures RevParseToplevel(fs, Format(target)) == None
  {
    assert target[..0] == [] && GitPath([]) == [".git"];
    assert target[..1] == ["srv"] && GitPath(["srv"]) == ["srv", ".git"];
    NoToplevelOfFile(fs, Format(target), target);
  }

  /** The submodule layout: `/w/lib/.git` holds the relative redirect git
      writes for the submodule `lib` of `/w`, `../.git/modules/lib`, and the
      editor runs in "/". */
  predicate IsSubmoduleLayout(fs: FileSystem, submodule: CanonicalPath, below: CanonicalPath) {
    && submodule == ["w", "lib"]
    && below == [".git", "modules", "lib"]
    && fs == FileSystem({["w", ".git"], GitPath(submodule), ["w"] + below},
                        map[GitPath(submodule) := GitdirPrefix + ".." + Format(below) + "\n"], [])
  }

  /** In the submodule layout the plugin's `parse_gitfile` resolves the
      redirect against "/" and names `/.git/modules/lib`, which does not
      exist; read as git reads it, the redirect names `/w/.git/modules/lib`. */
  lemma SubmoduleRedirect(fs: FileSystem, submodule: CanonicalPath, below: CanonicalPath)
    requires IsSubmoduleLayout(fs, submodule, below)
    ensures ParseGitfileAsWritten(fs, GitPath(submodule)) == Some(below)
    ensures below !in fs.entries
    ensures ParseGitfile(fs, submodule) == Some(["w"] + below)
  {
    SubmoduleParsed(fs, submodule, below);
    SubmoduleTargetMissing(fs, submodule, below);
  }

  lemma SubmoduleParsed(fs: FileSystem, submodule: CanonicalPath, below: CanonicalPath)
    requires IsSubmoduleLayout(fs, submodule, below)
    ensures ParseGitfileAsWritten(fs, GitPath(submodule)) == Some(below)
    ensures ParseGitfile(fs, submodule) == Some(["w"] + below)
  {
    ModulesEnds(below);
    assert submodule == ["w"] + ["lib"];
    SubmoduleGitfileRoundTrip(fs, submodule, ["w"], "lib", below, "\n");
    AtRoot(fs, GitPath(submodule), below);
  }

  lemma SubmoduleTargetMissing(fs: FileSystem, submodule: CanonicalPath, below: CanonicalPath)
    requires IsSubmoduleLayout(fs, submodule, below)
    ensures below !in fs.entries
  {
    assert below[0] == ".git" && GitPath(submodule)[0] == "w";
  }

  lemma ModulesEnds(below: CanonicalPath)
    requires below == [".git", "modules", "lib"]
    ensures Format(below)[|Format(below)| - 1] !in Whitespace
  {
    FormatThree(".git", "modules", "lib");
    EndsWith(Format(below), "/" + ".git" + "/" + "modules" + "/", "lib");
    LetterIsNotBlank('b');
  }

  /** Resolved against "/", the redirect climbs no higher than the root. */
  lemma AtRoot(fs: FileSystem, gitfile: CanonicalPath, below: CanonicalPath)
    requires fs.cwd == []
    requires ParseGitfileAsWritten(fs, gitfile) == Some(SplitLast(fs.cwd).0 + below)
    ensures ParseGitfileAsWritten(fs, gitfile) == Some(below)
  {
    assert SplitLast(fs.cwd).0 + below == below;
  }

  /** The text of `file` resolves below the ancestor `file[..k]`, the nearest
      one holding a `.git` entry. */
  lemma ToplevelOfFile(fs: FileSystem, filePath: string, file: CanonicalPath, k: nat)
    requires Format(file) == filePath
    requires k < |file| && GitPath(file[..k]) in fs.entries
    requires forall j :: k < j < |file| ==> GitPath(file[..j]) !in fs.entries
    ensures RevParseToplevel(fs, filePath) == Some(file[..k])
  {
    RealpathOfFormat(fs.cwd, file);
    NearestAncestorFound(fs, file, k);
  }

  lemma NoToplevelOfFile(fs: FileSystem, filePath: string, file: CanonicalPath)
    requires Format(file) == filePath
    requires forall j :: 0 <= j < |file| ==> GitPath(file[..j]) !in fs.entries
    ensures RevParseToplevel(fs, filePath) == None
  {
    RealpathOfFormat(fs.cwd, file);
    NoAncestorFound(fs, file);
  }

  /** `w/.git` holds what git writes for a redirect to `target`. */
  lemma RedirectTo(fs: FileSystem, w: CanonicalPath, target: CanonicalPath)
    requires GitPath(w) in fs.files
    requires fs.files[GitPath(w)] == GitdirPrefix + Format(target) + "\n"
    requires Format(target)[|Format(target)| - 1] !in Whitespace
    ensures ParseGitfile(fs, w) == Some(target)
  {
    GitfileRoundTrip(fs, w, target, "\n");
  }

  /** The last character of a text is that of its last part. */
  lemma EndsWith(s: string, x: string, y: string)
    requires s == x + y && y != []
    ensures s[|s| - 1] == y[|y| - 1]
  {
  }

  lemma LetterIsNotBlank(c: char)
    requires 'a' <= c <= 'z'
    ensures c !in Whitespace
  {
  }

  lemma FormatTwo(a: string, b: string)
    ensures Format([a, b]) == "/" + a + "/" + b
  {
    assert [a, b][1..] == [b];
    assert [b][1..] == [];
    assert JoinComponents([b]) == "/" + b + "";
    assert Format([a, b]) == "/" + a + ("/" + b + "");
  }

  lemma FormatThree(a: string, b: string, c: string)
    ensures Format([a, b, c]) == "/" + a + "/" + b + "/" + c
  {
    assert [a, b, c][1..] == [b, c];
    FormatTwo(b, c);
  }

  lemma FormatFour(a: string, b: string, c: string, d: string)
    ensures Format([a, b, c, d]) == "/" + a + "/" + b + "/" + c + "/" + d
  {
    assert [a, b, c, d][1..] == [b, c, d];
    FormatThree(b, c, d);
  }
}
